=== FILE: README.md ===
# AI stock analyzer: scoring, calculator and view rules

A functional Dafny model of the computational rules under the AI stock
dashboard. The dashboard itself is React; the rules below sit under its
components and are pure:

- **Stock service** (`stock_service.dfy`). It holds the AI score, growth
  score, risk score and price prediction. It also holds the defaulting that
  `processStockData` applies to an upstream analysis object to build a
  `StockData` record. The upstream object arrives already parsed: each
  `parseFloat`/`parseInt` result is an `Option`, and `None` stands for NaN.
  `currentPrice` is kept raw (`RawValue`), because the prediction tests its
  truthiness before it parses it.
- **Share-purchase calculator** (`stock_calculator.dfy`). It covers the
  amount field's input filter, the decimal value of the stored amount, the
  whole-share purchase rows and their totals.
- **`useStocks` hook** (`use_stocks.dfy`). Its five pieces of state form a
  reducer over the events the fetches and the selection deliver: `FetchStart`,
  `FetchOk`, `FetchErr`, `Select`, `AnalysisOk` and `AnalysisErr`.
- **Sector filter** (`sector_filter.dfy`). It covers the per-sector counts,
  the list of sectors and the chip and dropdown selection.
- **Portfolio dashboard** (`portfolio_dashboard.dfy`). It covers the total
  value, the mean scores, the allocation percentages and the bar colours.
- **Stock chart, sector performance, stock card and analysis panel**
  (`stock_chart.dfy`, `sector_performance.dfy`, `stock_card.dfy`,
  `stock_analysis.dfy`). These are the unit scaling, the colour ladders, the
  sign rules and the watchlist button dispatch.
- **Shared modules.** `wrappers.dfy` holds `Option`. `sums.dfy` holds the
  left-fold sum that the dashboard and the calculator share. `js_numbers.dfy`
  holds the JavaScript numbers the code can produce outside the reals (NaN
  and the two infinities) with division, multiplication, addition, the
  comparisons and the NaN-absorbing fold. `types.dfy` holds the record shapes. `display.dfy` holds the scaling to billions and millions and
  the `+` prefix.

Numbers are Dafny `real`s wherever the code stays finite. Where JavaScript
produces NaN or an infinity, the result is a `JsNumber`: the price prediction
of an unparsable price, a purchase row at a zero price and the calculator
totals over it, the mean scores of an empty portfolio, the allocation against
a zero total, and the card's change against a missing or zero previous close.

Three points about what the code does and does not do:

- The price prediction reads revenue growth as a percentage: price × (1 + growth/100).
  It is not a fraction.
- No score-to-label ladder ("Strong Buy/Buy/…") exists. The recommendation is
  the upstream string, or `"Hold"` when that is missing or empty.
- No risk level is computed from volatility or beta. The risk chip colours
  the upstream `riskLevel` text.
- The processed `StockData` record has no `previousClose` and no `sector`.
  Every card the app renders from it therefore shows a NaN percentage in a
  red chip (`StockCard.ProcessedCardsShowNaN`). The sector filter, which the
  app does not mount, would list the single sector `"undefined"`
  (`SectorFilter.DashboardStocksShareOneSector`). The card and the filter are
  modelled over their own input shapes, with an optional previous close and
  a sector text.

## Model

| member | source | states |
|---|---|---|
| `StockService.AIScore` | src/services/stockService.ts:158-182 | missing metrics score exactly 5; metrics with non-negative R&D, patents and share and an adoption in [0,1] score within [0,10] |
| `StockService.AIScoreMonotone` | src/services/stockService.ts:169-181 | raising any metric never lowers the AI score |
| `StockService.AIScoreSaturates` | src/services/stockService.ts:161-181 | the weights sum to one: every capped term at its cap with adoption 1 scores exactly 10 |
| `StockService.AIScoreOfNothing` | src/services/stockService.ts:169-181 | all-zero metrics score exactly 0 |
| `StockService.RndWeight` | src/services/stockService.ts:161-181 | at or below the 10000 cap each unit of R&D adds 0.0003 points, negative amounts included since only the cap is applied; at or above the cap it adds nothing |
| `StockService.PatentWeight` | src/services/stockService.ts:161-181 | at or below the 1000 cap each patent adds 0.002 points, negative counts included; at or above it nothing |
| `StockService.ShareWeight` | src/services/stockService.ts:161-181 | at or below 100 each point of market share adds 0.02 points, negative shares included; at or above it nothing |
| `StockService.GrowthWeight` | src/services/stockService.ts:161-181 | in [0,100] each point of revenue growth adds 0.02 points; below 0 and above 100 it adds nothing |
| `StockService.AdoptionWeight` | src/services/stockService.ts:161-181 | adoption is uncapped and adds one point per unit |
| `StockService.GrowthScore` | src/services/stockService.ts:184-188 | missing metrics give 5; otherwise the score is in [0,10]: growth/10 for growth in [0,100], 0 below, 10 above |
| `StockService.GrowthScoreMonotone` | src/services/stockService.ts:187 | the growth score is non-decreasing in revenue growth |
| `StockService.RiskScore` | src/services/stockService.ts:190-203 | always in [0,10]; exactly 5 with no analysis, and exactly 5 with no threats and no strengths |
| `StockService.RiskScoreUnclamped` | src/services/stockService.ts:199 | inside the clamp the score is 5 + 0.5 per threat − 0.3 per strength |
| `StockService.RiskScoreThreatRaises` | src/services/stockService.ts:195-202 | adding a threat never lowers the risk score |
| `StockService.RiskScoreStrengthLowers` | src/services/stockService.ts:195-202 | adding a strength never raises the risk score |
| `StockService.PricePrediction` | src/services/stockService.ts:205-213 | a falsy price predicts 0; a truthy price that does not parse gives NaN; otherwise the gain over the parsed price p is p × growth / 100, so zero growth returns p, and for a positive price the prediction exceeds it iff growth is positive |
| `StockService.PricePredictionExample` | src/services/stockService.ts:208-212 | price 100 with growth 20 predicts 120 |
| `StockService.PricePredictionUnbounded` | src/services/stockService.ts:212 | for every bound some input predicts more than it |
| `StockService.DefaultedMetrics` | src/services/stockService.ts:148-154 | the stored adoption is never 0; missing metrics give zeros with adoption 0.5; R&D, market share and growth are copied; a non-zero adoption is kept; the patent count is the whole part of a non-negative count |
| `StockService.ProcessStockData` | src/services/stockService.ts:132-156 | symbol kept; a non-empty name or recommendation passes through, and neither is ever empty; each successful parse (price, P/E, year high and low, volume) is stored as is; market cap read back in billions is the parsed figure; the three scores, the prediction and the metrics copy come from the raw object; growth and risk scores in [0,10]; neutral 5 scores when metrics or analysis are missing; no price history |
| `StockService.ProcessDefaults` | src/services/stockService.ts:135-153 | name defaults to the symbol and recommendation to "Hold"; failed parses become 0; an adoption of 0 becomes 0.5 |
| `StockService.ScoresIgnoreDefaultedCopy` | src/services/stockService.ts:142-154 | the AI score comes from the raw metrics: the defaulted copy the record stores would score differently (0.5 instead of 5 with no metrics, or 0.5 higher for an adoption of 0) |
| `Display.BillionsRoundTrip` | src/components/StockCard.tsx:93 | dividing by 1e9 and multiplying back returns the value, both ways round |
| `Display.MillionsRoundTrip` | src/components/StockCard.tsx:101 | dividing by 1e6 and multiplying back returns the value, both ways round |
| `Display.ScalingMonotone` | src/components/StockChart.tsx:62-68 | scaling to billions or millions keeps order and sign |
| `Display.Signed` | src/components/StockCard.tsx:81 | the text starts with `+` exactly when the flag holds, always ends with the printed digits, and is one character longer with the `+` |
| `StockCalculator.PatternIsWellFormed` | src/components/StockCalculator.tsx:30-31 | the left-to-right reading of `^\d*\.?\d*$` accepts exactly the strings of digits and dots with no two dots |
| `StockCalculator.HandleAmountChange` | src/components/StockCalculator.tsx:28-34 | a well-formed edit is stored, any other edit leaves the stored amount unchanged, and a well-formed stored amount stays well-formed |
| `StockCalculator.EmptyAndDotAccepted` | src/components/StockCalculator.tsx:31 | `""`, `"."` and the initial `"10000"` pass the filter; `"1.2.3"` and `"-5"` do not |
| `StockCalculator.ParseAmount` | src/components/StockCalculator.tsx:45 | parsing a well-formed amount fails (NaN) exactly when it has no digit; otherwise the value is non-negative |
| `StockCalculator.ParseAmountValue` | src/components/StockCalculator.tsx:45 | a parsed amount is its digits read as one integer (dot skipped) divided by ten to the number of digits after the dot |
| `StockCalculator.WholeAmountValue` | src/components/StockCalculator.tsx:45 | a non-empty run of digits parses to exactly its decimal value |
| `JsNumbers.TotalOfFinite` | src/components/StockCalculator.tsx:51-52 | a `reduce` sum from 0 over finite numbers is finite and equals the real sum |
| `JsNumbers.TotalWithNaN` | src/components/StockCalculator.tsx:51-52 | a `reduce` sum from 0 over numbers containing a NaN is NaN |
| `StockCalculator.TotalAmount` | src/components/StockCalculator.tsx:45 | the amount used is never negative and is 0 when the text holds no digit |
| `StockCalculator.EmptyAmountsAreZero` | src/components/StockCalculator.tsx:45 | `""` and `"."` stand for an amount of 0 |
| `StockCalculator.InitialAmountValue` | src/components/StockCalculator.tsx:26 | the initial text `"10000"` stands for 10000 |
| `StockCalculator.FractionalAmountValue` | src/components/StockCalculator.tsx:45 | `"12.5"` stands for 12.5 |
| `StockCalculator.CalculateStockPurchase` | src/components/StockCalculator.tsx:36-43 | a zero price gives Infinity shares for a positive amount, −Infinity for a negative one and NaN for 0, with NaN value and remainder; any other price gives value = shares × price and value + remaining = amount; a positive price gives value ≤ amount < value + price, 0 ≤ remaining < price and no negative shares for a non-negative amount; a negative price reverses the bracket: value + price < amount ≤ value, price < remaining ≤ 0 |
| `StockCalculator.FloorBounds` | src/components/StockCalculator.tsx:37-39 | for a positive price ⌊amount/price⌋ × price ≤ amount < (⌊amount/price⌋ + 1) × price; for a negative price both inequalities turn round |
| `StockCalculator.TotalsPartition` | src/components/StockCalculator.tsx:51-52 | when every row is bought and splits the amount into value and remainder, both totals are finite and add up to rows × amount |
| `StockCalculator.Calculations` | src/components/StockCalculator.tsx:46-49 | one purchase row per stock, in order, each bought with the whole amount at that stock's price |
| `StockCalculator.TotalsNonNegative` | src/components/StockCalculator.tsx:51-52 | the total value and the total remaining, each summed from 0 over the rows, are finite and non-negative when every row is bought with a non-negative value (resp. remainder) |
| `StockCalculator.TotalsWithZeroPrice` | src/components/StockCalculator.tsx:36-52 | one zero-price row makes both totals NaN |
| `StockCalculator.CalculatorTotals` | src/components/StockCalculator.tsx:45-52 | every stock gets the full amount on its own: with no zero price, total value + total remaining = number of stocks × amount; with any zero price both totals are NaN |
| `UseStocks.Initial` | src/hooks/useStocks.ts:8-12 | no stocks, loading, no error, no selection, no analysis |
| `UseStocks.Step` | src/hooks/useStocks.ts:26-58 | field by field: only a successful fetch replaces the stocks; only fetch events change the loading flag, true at the start and false at the end; only a selection changes the selection; only a resolved analysis request changes the analysis, to what it resolved (`null` included); each event's effect on the error |
| `UseStocks.SelectionCoversKept` | src/hooks/useStocks.ts:19-57 | over any run in which every analysis outcome answers a request from the selection effect, a state without a selection has nothing pending, no analysis and no analysis error |
| `UseStocks.AnalysisNeedsSelection` | src/hooks/useStocks.ts:19-24 | on a run from the first render in which every analysis outcome answers a request, an analysis or the analysis error is present only after some selection has been made (a later `Select("")` can leave it `""`); no event turns a made selection back into none |
| `UseStocks.NoRequestWithoutChange` | src/hooks/useStocks.ts:19-24 | selecting `""` or the stock already selected issues no analysis request |
| `UseStocks.FetchSucceeds` | src/hooks/useStocks.ts:29-33 | loading is set first; start then success leaves the data, no error and loading off, with everything else kept |
| `UseStocks.FetchFails` | src/hooks/useStocks.ts:34-38 | start then failure keeps the stocks, sets "Failed to fetch stock data" and turns loading off |
| `UseStocks.NullAnalysisClears` | src/hooks/useStocks.ts:46-48 | an analysis request resolving `null` clears the analysis and the error and keeps the stocks |
| `UseStocks.RefreshLikeFirstLoad` | src/hooks/useStocks.ts:26-67 | a refresh (`refreshData` is `fetchStocks`) from any state turns loading off as the first load does; on success it ends with the same stocks and error as the first load; on failure it sets the same error as the first load but keeps the stocks it already had; the selection and the analysis are left as they were |
| `UseStocks.ErrorsAreKnown` | src/hooks/useStocks.ts:33-52 | over any event sequence the error stays absent or one of the two messages |
| `UseStocks.ReachableErrorsAreKnown` | src/hooks/useStocks.ts:10-52 | from the initial state every reachable error is absent or one of the two messages |
| `UseStocks.AnalysisLeavesStocksAlone` | src/hooks/useStocks.ts:42-58 | selections and analysis outcomes never change the stocks or the loading flag |
| `UseStocks.FetchesLeaveSelectionAlone` | src/hooks/useStocks.ts:26-40 | stock fetches never change the selection or the analysis |
| `SectorFilter.SectorTally` | src/components/SectorFilter.tsx:26-29 | the keys are the sectors that occur; each count is that sector's number of stocks and at least 1; the key order has no duplicates and lists exactly the keys |
| `SectorFilter.SectorsAreDistinctOccurring` | src/components/SectorFilter.tsx:26-31 | the listed sectors have no duplicates and are exactly the sectors of some stock |
| `SectorFilter.CountsSumToStocks` | src/components/SectorFilter.tsx:26-29 | the counts over the listed sectors add up to the number of stocks |
| `SectorFilter.Sectors` | src/components/SectorFilter.tsx:31 | the listed sectors have no duplicates and are exactly the sectors that occur |
| `SectorFilter.DashboardStocksShareOneSector` | src/components/SectorFilter.tsx:26-31 | on the dashboard's records, which have no sector field, the filter lists `"undefined"` alone, counting every stock (and nothing for no stocks) |
| `SectorFilter.OneSectorOrder` | src/components/SectorFilter.tsx:26-31 | the key order built from records without a sector is `["undefined"]`, or empty for no records |
| `SectorFilter.SectorClick` | src/components/SectorFilter.tsx:33-35 | the new filter is `""` or the clicked sector; it is the clicked sector unless that sector was already selected |
| `SectorFilter.ClickToggles` | src/components/SectorFilter.tsx:33-35 | clicking a chip twice from "all sectors" returns to `""`; a second click on the same chip undoes the first when starting from `""` or from that chip; after a click on a non-empty chip it is highlighted iff it was not selected before |
| `SectorFilter.SelectChange` | src/components/SectorFilter.tsx:37-39 | the chosen value becomes the filter, so that chip alone is highlighted |
| `SectorFilter.AllSectorsHighlightsNothing` | src/components/SectorFilter.tsx:37-39 | choosing "All Sectors" (`""`) in the dropdown highlights no listed sector |
| `PortfolioDashboard.Average` | src/components/PortfolioDashboard.tsx:88-90 | the mean of no values is NaN; otherwise it is finite and times the count gives the sum |
| `PortfolioDashboard.PortfolioMetrics` | src/components/PortfolioDashboard.tsx:86-98 | the total value is the sum of prices; for no stocks it is 0 and every mean is NaN; otherwise each mean is finite and times the number of stocks is the sum of that score |
| `PortfolioDashboard.MeanBounded` | src/components/PortfolioDashboard.tsx:88-90 | the mean of a non-empty list of values within [lo,hi] is finite and within [lo,hi] |
| `PortfolioDashboard.MetricsInScale` | src/components/PortfolioDashboard.tsx:86-98 | with at least one stock and per-stock scores in [0,10], the mean risk, growth and AI scores are finite and in [0,10] and the bar values in [0,100] |
| `PortfolioDashboard.EmptyPortfolio` | src/components/PortfolioDashboard.tsx:86-196 | for no stocks the total value is 0, the means are NaN, so the risk bar is green and the growth bar red, and the allocation column is empty |
| `PortfolioDashboard.Allocation` | src/components/PortfolioDashboard.tsx:196 | one percentage per stock: with a non-zero total, a finite value whose product with the total is 100 × the price; with a zero total, Infinity for a positive price, −Infinity for a negative one and NaN for a zero one |
| `PortfolioDashboard.AllocationSumsTo100` | src/components/PortfolioDashboard.tsx:196 | with a non-zero total value the allocation percentages are all finite and add up to 100 |
| `PortfolioDashboard.RiskBarColor` | src/components/PortfolioDashboard.tsx:134 | red (`#f44336`) exactly above 7, green (`#4caf50`) exactly when not above 4, which includes NaN; orange between |
| `PortfolioDashboard.GrowthBarColor` | src/components/PortfolioDashboard.tsx:163 | green (`#4caf50`) exactly above 7, red (`#f44336`) exactly when not above 4, which includes NaN; orange between |
| `PortfolioDashboard.BarLaddersMirror` | src/components/PortfolioDashboard.tsx:134-163 | for a finite mean: risk >7 red, >4 orange, else green; for any mean, growth is the same ladder with red and green exchanged; 7 and 4 fall into the lower band |
| `StockChart.MetricLabelsDistinct` | src/components/StockChart.tsx:50-60 | the six metrics have six different labels |
| `StockChart.FormatValue` | src/components/StockChart.tsx:62-68 | market cap is plotted in billions, volume in millions (scaling back returns the raw value), other metrics unchanged |
| `StockChart.BackgroundColor` | src/components/StockChart.tsx:76-86 | the literal background ladder is the background shade of the value's tier |
| `StockChart.BorderColor` | src/components/StockChart.tsx:87-97 | the literal border ladder is the border shade of the value's tier |
| `StockChart.ColorsShareTier` | src/components/StockChart.tsx:76-97 | background and border colours always fall in the same tier; risk: red iff >7, green iff ≤4; other metrics: green iff >8, red iff ≤6 |
| `StockChart.Chart` | src/components/StockChart.tsx:70-101 | labels, data and both colour arrays have one entry per stock in stock order; data are scaled values; colours are the tier of the raw value |
| `StockChart.TierUsesRawValue` | src/components/StockChart.tsx:75-88 | a market cap of 3e9 plots as 3 but is coloured by the raw figure (green), not by the plotted 3 (red) |
| `SectorPerformance.FormatPercent` | src/components/SectorPerformance.tsx:23-25 | the text starts with `+` exactly when the number is ≥ 0 (zero included), ends with `%`, and between them holds exactly the printed digits |
| `SectorPerformance.GetColor` | src/components/SectorPerformance.tsx:27-32 | a success band (`success.light` or `success.main`) exactly at or above 0; `success.main` exactly at or above 2; `error.main` exactly below −2 |
| `SectorPerformance.BandBoundaries` | src/components/SectorPerformance.tsx:27-32 | the boundaries 2, 0 and −2 fall into the upper band |
| `SectorPerformance.GetColorMonotone` | src/components/SectorPerformance.tsx:27-32 | a higher performance never gets a lower band |
| `SectorPerformance.SuccessIffPlus` | src/components/SectorPerformance.tsx:24-32 | the colour is a success shade exactly when the percentage carries `+` |
| `SectorPerformance.BarLength` | src/components/SectorPerformance.tsx:61 | the bar length is non-negative, zero only for zero performance, and ten times a non-negative performance |
| `SectorPerformance.BarLengthSymmetric` | src/components/SectorPerformance.tsx:61 | p and −p have bars of the same length |
| `StockCard.PriceChange` | src/components/StockCard.tsx:37 | the change is NaN without a previous close; otherwise it is finite and adding the close gives the price |
| `StockCard.PositiveIffNotBelowClose` | src/components/StockCard.tsx:37-39 | the change is positive iff there is a previous close and the price is at least it, so an unchanged price counts as positive and a missing close does not |
| `StockCard.PriceChangePercent` | src/components/StockCard.tsx:38 | NaN without a previous close; with a non-zero close, a finite value whose product with the close is 100 times the change; with a zero close, Infinity for a positive price, −Infinity for a negative one and NaN for 0 |
| `StockCard.PercentHasChangeSign` | src/components/StockCard.tsx:38 | with a positive previous close the percentage is positive (resp. non-negative) exactly when the change is; with a negative close it is non-negative exactly when the price is at or below the close; without a close it is neither and the change is not positive |
| `StockCard.PriceChip` | src/components/StockCard.tsx:78-83 | the chip label has `+` exactly when the change is positive, then exactly the printed digits, then `%`; its colour and icon follow the same flag |
| `StockCard.CardOf` | src/App.tsx:92-97 | a card built from a processed record keeps its symbol, price, market cap and volume and has no previous close |
| `StockCard.ProcessedCardsShowNaN` | src/components/StockCard.tsx:37-83 | every card built from a processed record is not positive, its percentage is NaN, and its chip reads `NaN%` in the error colour with the falling arrow |
| `StockCard.WatchlistClick` | src/components/StockCard.tsx:41-48 | exactly one callback, with the stock's symbol: remove iff already in the watchlist |
| `StockCard.WatchlistClickAlternates` | src/components/StockCard.tsx:43-47 | flipping the membership flag flips the callback and keeps the symbol |
| `StockCard.ShownMarketCap` | src/components/StockCard.tsx:93 | the shown market cap times 1e9 is the stored market cap |
| `StockCard.ShownVolume` | src/components/StockCard.tsx:101 | the shown volume times 1e6 is the stored volume |
| `StockAnalysis.GetIndicatorColor` | src/components/StockAnalysis.tsx:35-37 | success exactly when the value is strictly above the threshold |
| `StockAnalysis.PanelIndicatorColors` | src/components/StockAnalysis.tsx:69-121 | RSI and sentiment are success iff above 50, MACD iff above 0 |
| `StockAnalysis.IndicatorAtThresholdIsError` | src/components/StockAnalysis.tsx:35-37 | a value equal to its threshold is coloured as an error |
| `StockAnalysis.SentimentTrend` | src/components/StockAnalysis.tsx:124 | the icon points up exactly when the sentiment score is above 50 |
| `StockAnalysis.TrendAgreesWithColor` | src/components/StockAnalysis.tsx:118-124 | the sentiment icon points up exactly when the score is coloured success |
| `StockAnalysis.GetRiskColor` | src/components/StockAnalysis.tsx:39-50 | success, warning and error exactly when the lowered text is "low", "medium" and "high"; default for any other text |
| `StockAnalysis.RiskColorCaseInsensitive` | src/components/StockAnalysis.tsx:39-50 | the colour does not depend on case; success iff the lowered text is "low", warning iff "medium", error iff "high", default otherwise |
| `StockAnalysis.RiskColorExamples` | src/components/StockAnalysis.tsx:39-50 | "Low", "MEDIUM", "High" and "Moderate" get success, warning, error and default |

## Left out

- OpenAI calls (`getTopAIStocks`, `getAIAnalysis`, `getStockAnalysis`) and their `JSON.parse`: network I/O and a foreign library. Their results are given values: the upstream `RawData`, and the outcome events of the hook. An analysis request that resolves `null` is the event `AnalysisOk(None)`.
- StockService.ProcessStockData: its input is always an object. When `getAIAnalysis` resolves `null` (an empty completion, src/services/stockService.ts:82-83), `processStockData` throws a TypeError reading `data.name`. The model has no null input; that throw reaches the hook as its `FetchErr` event.
- JavaScript's string-to-number coercion of the metric fields: the raw metrics are numeric `real`s. This covers the arithmetic in `calculateAIScore` and `calculateGrowthScore`, the `growth / 100` in `calculatePricePrediction`, and the `parseFloat`/`parseInt` of the metrics copy in `processStockData`. So a metrics object that is present but has a missing or non-numeric field, which yields NaN (or a `|| 0` default) in the source, is not modelled.
- `calculateRiskScore` on an `analysis` object that lacks `threats` or `strengths` throws a TypeError in the source; the model's analysis always has both lists.
- `parseInt` of a patent count written in exponent notation (very large or very small numbers) reads only the leading digits in the source; the model truncates toward zero.
- IEEE floating point, rounding and `toFixed`/`toLocaleString` formatting: numbers are exact reals, and the digits `toFixed` would print are passed in as text.
- IEEE signed zero: `JsNumber` has one zero, so a division by a negative zero (which no price or close parsed here produces) is not distinguished from one by a positive zero.
- PortfolioDashboard.MeanBounded: requires a non-empty list, because a bound on a NaN mean means nothing; `PortfolioMetrics` and `EmptyPortfolio` state the NaN result for no stocks.
- PortfolioDashboard.AllocationSumsTo100: requires a non-zero total value, because the percentages only sum when they are finite; `Allocation` states the Infinity and NaN entries for a zero total.
- StockCalculator.TotalsWithZeroPrice: requires the zero-price row's quotient to be an infinity or NaN, as every row `CalculateStockPurchase` builds has it; `CalculatorTotals` states the NaN totals for stocks with a zero price.
- SectorFilter.SectorTally: the tally starts from `{}`, which inherits `Object.prototype`. For a sector named after an inherited property (`"constructor"`, `"toString"`, `"valueOf"`, …), `acc[sector] || 0` reads the inherited function, so the count becomes a string. For `"__proto__"` the assignment is ignored and `Object.keys` omits the sector. The model's fresh map counts these sectors like any other, so its contract does not hold in the source for those names.
- `Object.keys` lists integer-like keys (such as `"42"`) first in numeric order. The model lists sectors in first-occurrence order, which is the order for every other key.
- `toLowerCase` on non-ASCII text: the model lowers ASCII only. No non-ASCII character lowers to a letter of "low", "medium" or "high", so the risk colour is unaffected.
- Effect scheduling, React's batching and races between overlapping fetches in `useStocks`: events are applied one at a time, and each fetch outcome is one event.
- The watchlist's own storage: the add and remove handlers belong to the cards' parent, which is not part of this model. Only the dispatch is modelled.
- `handleMetricChange` in the chart and the tab state of the dashboard are plain setters with nothing to state.
- All rendering (JSX, MUI, chart.js registration, the theme).
- The mock fixtures and the random and clock-driven generators (`enhancedStockService.ts`, `newsService.ts`, `mockData.ts`): nondeterministic or static data.
- The pure enum-to-colour tables of the educational, news, market-overview and enhanced-analysis components.

=== FILE: display.dfy ===
/** Display helpers shared by several components: the unit scaling of market
    capitalisation and volume, and the `+` prefix put in front of non-negative
    changes. Decimal rounding (`toFixed`) is not modelled: the digits it would
    print are passed in as text. */
module Display {

  const BILLION: real := 1000000000.0
  const MILLION: real := 1000000.0

  /** A dollar amount shown in billions (`value / 1e9`). */
  function Billions(value: real): real {
    value / BILLION
  }

  /** A count shown in millions (`value / 1e6`). */
  function Millions(value: real): real {
    value / MILLION
  }

  lemma BillionsRoundTrip(value: real)
    ensures Billions(value) * BILLION == value
    ensures Billions(value * BILLION) == value
  {
  }

  lemma MillionsRoundTrip(value: real)
    ensures Millions(value) * MILLION == value
    ensures Millions(value * MILLION) == value
  {
  }

  /** Scaling keeps the sign and the order of the values. */
  lemma ScalingMonotone(a: real, b: real)
    ensures a <= b <==> Billions(a) <= Billions(b)
    ensures a <= b <==> Millions(a) <= Millions(b)
    ensures 0.0 <= a <==> 0.0 <= Billions(a)
    ensures 0.0 <= a <==> 0.0 <= Millions(a)
  {
  }

  /** Text as printed by a number's `toFixed`: never starts with `+`. */
  predicate IsFixedText(text: string) {
    |text| > 0 && text[0] != '+'
  }

  /** `text` with a `+` in front exactly when `plus` holds. */
  function Signed(plus: bool, text: string): (r: string)
    requires IsFixedText(text)
    ensures |r| > 0 && |r| == |text| + (if plus then 1 else 0)
    ensures r[0] == '+' <==> plus
    ensures r[|r| - |text|..] == text
  {
    if plus then "+" + text else text
  }
}

=== FILE: js_numbers.dfy ===
/** JavaScript numbers where the dashboard's arithmetic leaves the reals: a
    division by zero gives an infinity or NaN, a missing field gives NaN, and
    every comparison with NaN is false. Finite values are exact reals; signed
    zero is not distinguished. */
module JsNumbers {
  import opened Sums

  datatype JsNumber = Num(value: real) | PosInf | NegInf | NaN

  /** `a / b` on two finite numbers: a zero divisor gives an infinity with the
      sign of the dividend, and `0 / 0` is NaN. */
  function Div(a: real, b: real): (r: JsNumber)
    ensures r.Num? <==> b != 0.0
    ensures r.Num? ==> r.value * b == a
    ensures r.PosInf? <==> b == 0.0 && a > 0.0
    ensures r.NegInf? <==> b == 0.0 && a < 0.0
    ensures r.NaN? <==> b == 0.0 && a == 0.0
  {
    if b != 0.0 then Num(a / b)
    else if a > 0.0 then PosInf
    else if a < 0.0 then NegInf
    else NaN
  }

  /** `x * k` for a finite `k`: an infinity keeps or flips its sign with `k`,
      an infinity times zero is NaN, and NaN stays NaN. */
  function Mul(x: JsNumber, k: real): (r: JsNumber)
    ensures r.Num? <==> x.Num?
    ensures r.Num? ==> r.value == x.value * k
    ensures r.PosInf? <==> (x.PosInf? && k > 0.0) || (x.NegInf? && k < 0.0)
    ensures r.NegInf? <==> (x.NegInf? && k > 0.0) || (x.PosInf? && k < 0.0)
    ensures r.NaN? <==> x.NaN? || (!x.Num? && k == 0.0)
  {
    match x
    case Num(v) => Num(v * k)
    case NaN => NaN
    case PosInf => if k > 0.0 then PosInf else if k < 0.0 then NegInf else NaN
    case NegInf => if k > 0.0 then NegInf else if k < 0.0 then PosInf else NaN
  }

  /** `x > k`. */
  predicate Greater(x: JsNumber, k: real) {
    match x
    case Num(v) => v > k
    case PosInf => true
    case NegInf => false
    case NaN => false
  }

  /** `x >= k`. */
  predicate AtLeast(x: JsNumber, k: real) {
    match x
    case Num(v) => v >= k
    case PosInf => true
    case NegInf => false
    case NaN => false
  }

  /** NaN is neither above nor at-or-above anything, and an infinity is
      beyond every finite bound. */
  lemma ComparisonsWithSpecials(x: JsNumber, k: real)
    ensures x.NaN? ==> !Greater(x, k) && !AtLeast(x, k)
    ensures x.PosInf? ==> Greater(x, k) && AtLeast(x, k)
    ensures x.NegInf? ==> !Greater(x, k) && !AtLeast(x, k)
    ensures x.Num? ==> (Greater(x, k) <==> x.value > k) && (AtLeast(x, k) <==> x.value >= k)
    ensures Greater(x, k) ==> AtLeast(x, k)
  {
  }

  /** The values of a list of finite numbers. */
  function Reals(xs: seq<JsNumber>): (r: seq<real>)
    requires forall i :: 0 <= i < |xs| ==> xs[i].Num?
    ensures |r| == |xs| && forall i :: 0 <= i < |r| ==> r[i] == xs[i].value
  {
    seq(|xs|, i requires 0 <= i < |xs| => xs[i].value)
  }

  /** `x + y`: NaN absorbs, opposite infinities give NaN, and an infinity
      absorbs every finite value. */
  function Plus(x: JsNumber, y: JsNumber): (r: JsNumber)
    ensures r.Num? <==> x.Num? && y.Num?
    ensures r.Num? ==> r.value == x.value + y.value
    ensures x.NaN? || y.NaN? ==> r.NaN?
  {
    match (x, y)
    case (Num(a), Num(b)) => Num(a + b)
    case (NaN, _) => NaN
    case (_, NaN) => NaN
    case (PosInf, NegInf) => NaN
    case (NegInf, PosInf) => NaN
    case (PosInf, _) => PosInf
    case (_, PosInf) => PosInf
    case (NegInf, _) => NegInf
    case (_, NegInf) => NegInf
  }

  /** `reduce((sum, x) => sum + x, 0)` over JavaScript numbers. */
  function Total(xs: seq<JsNumber>): JsNumber {
    if xs == [] then Num(0.0) else Plus(Total(xs[..|xs| - 1]), xs[|xs| - 1])
  }

  /** Over finite numbers the fold is the real sum. */
  lemma {:induction false} TotalOfFinite(xs: seq<JsNumber>)
    requires forall i :: 0 <= i < |xs| ==> xs[i].Num?
    ensures Total(xs) == Num(Sum(Reals(xs)))
  {
    if xs != [] {
      var n := |xs| - 1;
      TotalOfFinite(xs[..n]);
      assert Reals(xs)[..n] == Reals(xs[..n]);
    }
  }

  /** One NaN anywhere makes the whole fold NaN. */
  lemma {:induction false} TotalWithNaN(xs: seq<JsNumber>, k: nat)
    requires k < |xs| && xs[k].NaN?
    ensures Total(xs).NaN?
  {
    var n := |xs| - 1;
    if k < n {
      assert xs[..n][k] == xs[k];
      TotalWithNaN(xs[..n], k);
    }
  }
}

=== FILE: portfolio_dashboard.dfy ===
/** The portfolio dashboard's figures: the total value, the three mean scores,
    each stock's share of the total, and the colour of the risk and growth
    bars. They are computed from the stock list alone; the dashboard's
    `watchlist` input is not an argument of any of them. */
module PortfolioDashboard {
  import opened Types
  import opened Sums
  import opened JsNumbers

  function Prices(stocks: seq<StockData>): (r: seq<real>)
    ensures |r| == |stocks| && forall i :: 0 <= i < |r| ==> r[i] == stocks[i].price
  {
    seq(|stocks|, i requires 0 <= i < |stocks| => stocks[i].price)
  }

  function RiskScores(stocks: seq<StockData>): (r: seq<real>)
    ensures |r| == |stocks| && forall i :: 0 <= i < |r| ==> r[i] == stocks[i].riskScore
  {
    seq(|stocks|, i requires 0 <= i < |stocks| => stocks[i].riskScore)
  }

  function GrowthScores(stocks: seq<StockData>): (r: seq<real>)
    ensures |r| == |stocks| && forall i :: 0 <= i < |r| ==> r[i] == stocks[i].growthScore
  {
    seq(|stocks|, i requires 0 <= i < |stocks| => stocks[i].growthScore)
  }

  function AIScores(stocks: seq<StockData>): (r: seq<real>)
    ensures |r| == |stocks| && forall i :: 0 <= i < |r| ==> r[i] == stocks[i].aiScore
  {
    seq(|stocks|, i requires 0 <= i < |stocks| => stocks[i].aiScore)
  }

  /** `reduce(...) / stocks.length`: the mean of a non-empty list, and NaN
      (`0 / 0`) for an empty one. */
  function Average(xs: seq<real>): (r: JsNumber)
    ensures |xs| == 0 ==> r.NaN?
    ensures |xs| > 0 ==> r.Num? && r.value * (|xs| as real) == Sum(xs)
  {
    Div(Sum(xs), |xs| as real)
  }

  datatype Metrics = Metrics(totalValue: real, totalRisk: JsNumber, totalGrowth: JsNumber, totalAI: JsNumber)

  /** `calculatePortfolioMetrics`. */
  function PortfolioMetrics(stocks: seq<StockData>): (r: Metrics)
    ensures r.totalValue == Sum(Prices(stocks))
    ensures |stocks| == 0 ==> r.totalValue == 0.0 && r.totalRisk.NaN? && r.totalGrowth.NaN? && r.totalAI.NaN?
    ensures |stocks| > 0 ==> r.totalRisk.Num? && r.totalRisk.value * (|stocks| as real) == Sum(RiskScores(stocks))
    ensures |stocks| > 0 ==> r.totalGrowth.Num? && r.totalGrowth.value * (|stocks| as real) == Sum(GrowthScores(stocks))
    ensures |stocks| > 0 ==> r.totalAI.Num? && r.totalAI.value * (|stocks| as real) == Sum(AIScores(stocks))
  {
    Metrics(Sum(Prices(stocks)), Average(RiskScores(stocks)), Average(GrowthScores(stocks)), Average(AIScores(stocks)))
  }

  /** The mean of a non-empty list lies between the bounds of its values. */
  lemma MeanBounded(xs: seq<real>, lo: real, hi: real)
    requires |xs| > 0 && Within(xs, lo, hi)
    ensures Average(xs).Num? && lo <= Average(xs).value <= hi
  {
    SumBounds(xs, lo, hi);
    DivideBounds(Sum(xs), |xs| as real, lo, hi);
  }

  lemma DivideBounds(s: real, n: real, lo: real, hi: real)
    requires n > 0.0 && n * lo <= s <= n * hi
    ensures lo <= s / n <= hi
  {
    assert s / n * n == s;
  }

  predicate ScoresInScale(stocks: seq<StockData>) {
    forall i :: 0 <= i < |stocks| ==>
      && 0.0 <= stocks[i].riskScore <= 10.0
      && 0.0 <= stocks[i].growthScore <= 10.0
      && 0.0 <= stocks[i].aiScore <= 10.0
  }

  /** Per-stock scores on the 0-10 scale give finite mean scores on that
      scale, and bar values (`mean * 10`) between 0 and 100. */
  lemma MetricsInScale(stocks: seq<StockData>)
    requires |stocks| > 0 && ScoresInScale(stocks)
    ensures var m := PortfolioMetrics(stocks);
      && m.totalRisk.Num? && m.totalGrowth.Num? && m.totalAI.Num?
      && 0.0 <= m.totalRisk.value <= 10.0
      && 0.0 <= m.totalGrowth.value <= 10.0
      && 0.0 <= m.totalAI.value <= 10.0
      && 0.0 <= Mul(m.totalRisk, 10.0).value <= 100.0
      && 0.0 <= Mul(m.totalGrowth, 10.0).value <= 100.0
  {
    MeanBounded(RiskScores(stocks), 0.0, 10.0);
    MeanBounded(GrowthScores(stocks), 0.0, 10.0);
    MeanBounded(AIScores(stocks), 0.0, 10.0);
  }

  /** The allocation column: each price as a percentage of the total value.
      A zero total divides by zero: an infinity for a priced stock, NaN for
      an unpriced one. */
  function Allocation(stocks: seq<StockData>): (r: seq<JsNumber>)
    ensures |r| == |stocks|
    ensures Sum(Prices(stocks)) != 0.0 ==>
              forall i :: 0 <= i < |r| ==> r[i].Num? && r[i].value * Sum(Prices(stocks)) == stocks[i].price * 100.0
    ensures Sum(Prices(stocks)) == 0.0 ==>
              forall i :: 0 <= i < |r| ==>
                && (r[i].PosInf? <==> stocks[i].price > 0.0)
                && (r[i].NegInf? <==> stocks[i].price < 0.0)
                && (r[i].NaN? <==> stocks[i].price == 0.0)
  {
    var total := Sum(Prices(stocks));
    seq(|stocks|, i requires 0 <= i < |stocks| => Mul(Div(stocks[i].price, total), 100.0))
  }

  /** With a non-zero total the allocation percentages are finite and add up
      to 100. */
  lemma AllocationSumsTo100(stocks: seq<StockData>)
    requires Sum(Prices(stocks)) != 0.0
    ensures forall i :: 0 <= i < |stocks| ==> Allocation(stocks)[i].Num?
    ensures Sum(Reals(Allocation(stocks))) == 100.0
  {
    var total := Sum(Prices(stocks));
    var c := 100.0 / total;
    var a := Reals(Allocation(stocks));
    forall i | 0 <= i < |a| ensures a[i] == Prices(stocks)[i] * c {
      assert a[i] == stocks[i].price / total * 100.0;
    }
    SumScaled(Prices(stocks), a, c);
    assert total * c == 100.0;
  }

  /** The three bar colours. */
  datatype BarColor = Red | Orange | Green {
    function Hex(): string {
      match this
      case Red => "#f44336"
      case Orange => "#ff9800"
      case Green => "#4caf50"
    }
  }

  /** Risk bar: high risk is red. A NaN mean fails both comparisons and is
      green. */
  function RiskBarColor(totalRisk: JsNumber): (c: BarColor)
    ensures c == Red <==> Greater(totalRisk, 7.0)
    ensures c == Green <==> !Greater(totalRisk, 4.0)
    ensures c.Hex() == "#f44336" <==> Greater(totalRisk, 7.0)
    ensures c.Hex() == "#4caf50" <==> !Greater(totalRisk, 4.0)
  {
    if Greater(totalRisk, 7.0) then Red else if Greater(totalRisk, 4.0) then Orange else Green
  }

  /** Growth bar: high growth is green. A NaN mean is red. */
  function GrowthBarColor(totalGrowth: JsNumber): (c: BarColor)
    ensures c == Green <==> Greater(totalGrowth, 7.0)
    ensures c == Red <==> !Greater(totalGrowth, 4.0)
    ensures c.Hex() == "#4caf50" <==> Greater(totalGrowth, 7.0)
    ensures c.Hex() == "#f44336" <==> !Greater(totalGrowth, 4.0)
  {
    if Greater(totalGrowth, 7.0) then Green else if Greater(totalGrowth, 4.0) then Orange else Red
  }

  function Swap(c: BarColor): BarColor {
    match c
    case Red => Green
    case Orange => Orange
    case Green => Red
  }

  /** The growth ladder is the risk ladder with red and green exchanged; the
      thresholds 7 and 4 fall into the lower band. */
  lemma BarLaddersMirror(v: JsNumber)
    ensures GrowthBarColor(v) == Swap(RiskBarColor(v))
    ensures v.Num? ==> (RiskBarColor(v) == Red <==> v.value > 7.0)
    ensures v.Num? ==> (RiskBarColor(v) == Orange <==> 4.0 < v.value <= 7.0)
    ensures v.Num? ==> (RiskBarColor(v) == Green <==> v.value <= 4.0)
    ensures RiskBarColor(Num(7.0)) == Orange && RiskBarColor(Num(4.0)) == Green
  {
  }

  /** An empty portfolio: the total is zero, every mean is NaN, the risk bar
      is green and the growth bar red. */
  lemma EmptyPortfolio()
    ensures PortfolioMetrics([]).totalValue == 0.0
    ensures PortfolioMetrics([]).totalRisk.NaN? && PortfolioMetrics([]).totalGrowth.NaN?
    ensures RiskBarColor(PortfolioMetrics([]).totalRisk) == Green
    ensures GrowthBarColor(PortfolioMetrics([]).totalGrowth) == Red
    ensures Allocation([]) == []
  {
  }
}

=== FILE: sector_filter.dfy ===
/** The sector filter: the per-sector counts shown on the chips, the list of
    sectors, and the selection the chips and the dropdown report. The
    selection `""` stands for all sectors. */
module SectorFilter {
  import opened Types

  /** The two fields of a stock the filter reads. */
  datatype ListedStock = ListedStock(symbol: string, sector: string)

  /** The `sectorCounts` record together with the order in which its keys were
      first written, which is the order `Object.keys` lists them in. */
  datatype Tally = Tally(counts: map<string, nat>, order: seq<string>)

  predicate NoDuplicates(xs: seq<string>) {
    forall i, j :: 0 <= i < j < |xs| ==> xs[i] != xs[j]
  }

  /** How many of `stocks` are in `sector`. */
  function Occurrences(stocks: seq<ListedStock>, sector: string): nat {
    if stocks == [] then 0
    else Occurrences(stocks[..|stocks| - 1], sector) + (if stocks[|stocks| - 1].sector == sector then 1 else 0)
  }

  /** The sectors that occur in `stocks`. */
  function SectorSet(stocks: seq<ListedStock>): set<string> {
    set i | 0 <= i < |stocks| :: stocks[i].sector
  }

  lemma SectorSetSnoc(stocks: seq<ListedStock>)
    requires stocks != []
    ensures SectorSet(stocks) == SectorSet(stocks[..|stocks| - 1]) + {stocks[|stocks| - 1].sector}
  {
    var init := stocks[..|stocks| - 1];
    forall k | k in SectorSet(stocks)
      ensures k in SectorSet(init) + {stocks[|stocks| - 1].sector}
    {
      var i :| 0 <= i < |stocks| && stocks[i].sector == k;
      if i < |init| { assert init[i] == stocks[i]; }
    }
    forall k | k in SectorSet(init)
      ensures k in SectorSet(stocks)
    {
      var i :| 0 <= i < |init| && init[i].sector == k;
      assert stocks[i] == init[i];
    }
  }

  lemma {:induction false} AbsentSectorNeverOccurs(stocks: seq<ListedStock>, sector: string)
    requires sector !in SectorSet(stocks)
    ensures Occurrences(stocks, sector) == 0
  {
    if stocks != [] {
      SectorSetSnoc(stocks);
      AbsentSectorNeverOccurs(stocks[..|stocks| - 1], sector);
    }
  }

  /** The `reduce` callback: one more stock in `sector`, a key written for the
      first time going to the end of the key order. */
  function Record(t: Tally, sector: string): Tally {
    if sector in t.counts then Tally(t.counts[sector := t.counts[sector] + 1], t.order)
    else Tally(t.counts[sector := 1], t.order + [sector])
  }

  /** The `reduce` over the stocks that builds `sectorCounts`. */
  function SectorTally(stocks: seq<ListedStock>): (t: Tally)
    ensures NoDuplicates(t.order)
    ensures forall k :: k in t.counts <==> k in t.order
    ensures forall i :: 0 <= i < |t.order| ==> t.order[i] in t.counts
    ensures t.counts.Keys == SectorSet(stocks)
    ensures forall k :: k in t.counts ==> t.counts[k] == Occurrences(stocks, k) && t.counts[k] >= 1
  {
    if stocks == [] then Tally(map[], [])
    else
      var init := stocks[..|stocks| - 1];
      var prev := SectorTally(init);
      var k := stocks[|stocks| - 1].sector;
      SectorSetSnoc(stocks);
      assert k !in prev.counts ==> Occurrences(init, k) == 0 by {
        if k !in prev.counts { AbsentSectorNeverOccurs(init, k); }
      }
      Record(prev, k)
  }

  /** `Object.keys(sectorCounts)`. */
  function Sectors(stocks: seq<ListedStock>): (r: seq<string>)
    ensures NoDuplicates(r)
    ensures forall k :: k in r <==> k in SectorSet(stocks)
  {
    SectorTally(stocks).order
  }

  /** The listed sectors are the occurring sectors, each once. */
  lemma SectorsAreDistinctOccurring(stocks: seq<ListedStock>)
    ensures NoDuplicates(Sectors(stocks))
    ensures forall k :: k in Sectors(stocks) <==> exists i :: 0 <= i < |stocks| && stocks[i].sector == k
  {
    var t := SectorTally(stocks);
    forall k
      ensures k in t.order <==> exists i :: 0 <= i < |stocks| && stocks[i].sector == k
    {
      assert k in t.order <==> k in SectorSet(stocks);
    }
  }

  /** Sum of the counts of `order`. */
  function SumOver(order: seq<string>, counts: map<string, nat>): nat
    requires forall i :: 0 <= i < |order| ==> order[i] in counts
  {
    if order == [] then 0
    else SumOver(order[..|order| - 1], counts) + counts[order[|order| - 1]]
  }

  lemma {:induction false} SumFrame(order: seq<string>, m: map<string, nat>, m': map<string, nat>)
    requires forall i :: 0 <= i < |order| ==> order[i] in m && order[i] in m' && m[order[i]] == m'[order[i]]
    ensures SumOver(order, m) == SumOver(order, m')
  {
    if order != [] {
      SumFrame(order[..|order| - 1], m, m');
    }
  }

  lemma {:induction false} SumBump(order: seq<string>, m: map<string, nat>, k: string)
    requires NoDuplicates(order) && k in order
    requires forall i :: 0 <= i < |order| ==> order[i] in m
    ensures SumOver(order, m[k := m[k] + 1]) == SumOver(order, m) + 1
  {
    var init := order[..|order| - 1];
    var m' := m[k := m[k] + 1];
    if order[|order| - 1] == k {
      assert k !in init;
      SumFrame(init, m, m');
    } else {
      assert k in init;
      SumBump(init, m, k);
    }
  }

  lemma SumAppend(order: seq<string>, m: map<string, nat>, k: string)
    requires k !in order
    requires forall i :: 0 <= i < |order| ==> order[i] in m
    ensures SumOver(order + [k], m[k := 1]) == SumOver(order, m) + 1
  {
    var order' := order + [k];
    assert order'[..|order'| - 1] == order;
    SumFrame(order, m, m[k := 1]);
  }

  /** Recording a stock adds one to the sum of the counts. */
  lemma RecordAddsOne(t: Tally, sector: string)
    requires NoDuplicates(t.order)
    requires forall k :: k in t.counts <==> k in t.order
    requires forall i :: 0 <= i < |t.order| ==> t.order[i] in t.counts
    ensures forall i :: 0 <= i < |Record(t, sector).order| ==> Record(t, sector).order[i] in Record(t, sector).counts
    ensures SumOver(Record(t, sector).order, Record(t, sector).counts) == SumOver(t.order, t.counts) + 1
  {
    if sector in t.counts {
      SumBump(t.order, t.counts, sector);
    } else {
      SumAppend(t.order, t.counts, sector);
    }
  }

  /** The counts add up to the number of stocks. */
  lemma {:induction false} CountsSumToStocks(stocks: seq<ListedStock>)
    ensures SumOver(SectorTally(stocks).order, SectorTally(stocks).counts) == |stocks|
  {
    if stocks != [] {
      var init := stocks[..|stocks| - 1];
      CountsSumToStocks(init);
      RecordAddsOne(SectorTally(init), stocks[|stocks| - 1].sector);
    }
  }

  /** `handleSectorClick`: clicking the selected chip clears the filter,
      clicking any other chip selects it. */
  function SectorClick(selected: string, sector: string): (r: string)
    ensures r == "" || r == sector
    ensures r == sector <==> selected != sector || sector == ""
  {
    if sector == selected then "" else sector
  }

  /** The chip drawn in the primary colour. */
  predicate Highlighted(selected: string, sector: string) {
    sector == selected
  }

  /** A click toggles its chip: a second click on the same chip undoes a
      selection made from "all sectors", and after a click on a non-empty
      sector at most that chip is highlighted. */
  lemma ClickToggles(selected: string, sector: string)
    ensures SectorClick(SectorClick("", sector), sector) == ""
    ensures SectorClick(SectorClick(selected, sector), sector) == (if selected == sector then sector else "")
    ensures sector != "" ==> (Highlighted(SectorClick(selected, sector), sector) <==> selected != sector)
  {
  }

  /** `handleSelectChange`: the dropdown reports the chosen value as is; its
      "All Sectors" entry has the value `""`. */
  function SelectChange(value: string): (r: string)
    ensures Highlighted(r, value)
    ensures forall k :: k != value ==> !Highlighted(r, k)
  {
    value
  }

  lemma AllSectorsHighlightsNothing(stocks: seq<ListedStock>)
    requires forall i :: 0 <= i < |stocks| ==> stocks[i].sector != ""
    ensures forall k :: k in Sectors(stocks) ==> !Highlighted(SelectChange(""), k)
  {
    SectorsAreDistinctOccurring(stocks);
  }

  /** A dashboard record has no `sector` field, so `acc[stock.sector]` reads
      `undefined`, which as a property key is the text `"undefined"`. */
  function Listed(d: StockData): (l: ListedStock)
    ensures l.symbol == d.symbol && l.sector == "undefined"
  {
    ListedStock(d.symbol, "undefined")
  }

  function ListedAll(ds: seq<StockData>): (r: seq<ListedStock>)
    ensures |r| == |ds| && forall i :: 0 <= i < |r| ==> r[i] == Listed(ds[i])
  {
    seq(|ds|, i requires 0 <= i < |ds| => Listed(ds[i]))
  }

  lemma {:induction false} AllUndefined(ds: seq<StockData>)
    ensures Occurrences(ListedAll(ds), "undefined") == |ds|
  {
    if ds != [] {
      var n := |ds| - 1;
      AllUndefined(ds[..n]);
      assert ListedAll(ds)[..n] == ListedAll(ds[..n]);
    }
  }

  lemma {:induction false} OneSectorOrder(ds: seq<StockData>)
    ensures SectorTally(ListedAll(ds)).order == (if ds == [] then [] else ["undefined"])
  {
    if ds != [] {
      var n := |ds| - 1;
      OneSectorOrder(ds[..n]);
      assert ListedAll(ds)[..n] == ListedAll(ds[..n]);
    }
  }

  /** Fed the dashboard's own records, the filter lists one sector,
      `"undefined"`, holding every stock (and none for no stocks). */
  lemma DashboardStocksShareOneSector(ds: seq<StockData>)
    ensures Sectors(ListedAll(ds)) == (if ds == [] then [] else ["undefined"])
    ensures ds != [] ==> SectorTally(ListedAll(ds)).counts == map["undefined" := |ds|]
  {
    OneSectorOrder(ds);
    if ds != [] {
      AllUndefined(ds);
      var t := SectorTally(ListedAll(ds));
      assert t.counts.Keys == {"undefined"};
    }
  }
}

=== FILE: sector_performance.dfy ===
/** The sector-performance panel: the signed percentage text, the colour band
    of a performance figure, and the length of its bar. */
module SectorPerformance {
  import Display

  /** `formatPercent`: `fixed` is the `toFixed(2)` text of `num`. */
  function FormatPercent(num: real, fixed: string): (r: string)
    requires Display.IsFixedText(fixed)
    ensures |r| > 0 && r[|r| - 1] == '%'
    ensures r[0] == '+' <==> num >= 0.0
    ensures |r| == |fixed| + (if num >= 0.0 then 2 else 1)
    ensures r[|r| - 1 - |fixed|..|r| - 1] == fixed
  {
    Display.Signed(num >= 0.0, fixed) + "%"
  }

  /** The four theme colours of `getColor`, from worst to best. */
  datatype Band = ErrorMain | ErrorLight | SuccessLight | SuccessMain {
    function ThemeKey(): string {
      match this
      case ErrorMain => "error.main"
      case ErrorLight => "error.light"
      case SuccessLight => "success.light"
      case SuccessMain => "success.main"
    }

    function Rank(): nat {
      match this
      case ErrorMain => 0
      case ErrorLight => 1
      case SuccessLight => 2
      case SuccessMain => 3
    }
  }

  /** `getColor`: first match of >= 2, >= 0, >= -2. */
  function GetColor(performance: real): (b: Band)
    ensures b.Rank() >= 2 <==> performance >= 0.0
    ensures b == SuccessMain <==> performance >= 2.0
    ensures b == ErrorMain <==> performance < -2.0
    ensures b.ThemeKey() in {"success.light", "success.main"} <==> performance >= 0.0
    ensures b.ThemeKey() == "success.main" <==> performance >= 2.0
    ensures b.ThemeKey() == "error.main" <==> performance < -2.0
  {
    if performance >= 2.0 then SuccessMain
    else if performance >= 0.0 then SuccessLight
    else if performance >= -2.0 then ErrorLight
    else ErrorMain
  }

  /** The boundaries belong to the upper band. */
  lemma BandBoundaries()
    ensures GetColor(2.0) == SuccessMain
    ensures GetColor(0.0) == SuccessLight
    ensures GetColor(-2.0) == ErrorLight
  {
  }

  lemma GetColorMonotone(a: real, b: real)
    requires a <= b
    ensures GetColor(a).Rank() <= GetColor(b).Rank()
  {
  }

  /** The colour is green-family exactly when the percentage gets its `+`. */
  lemma SuccessIffPlus(num: real, fixed: string)
    requires Display.IsFixedText(fixed)
    ensures GetColor(num).Rank() >= 2 <==> FormatPercent(num, fixed)[0] == '+'
  {
  }

  /** The `LinearProgress` value: `Math.abs(performance) * 10`. */
  function BarLength(performance: real): (r: real)
    ensures r >= 0.0
    ensures r == 0.0 <==> performance == 0.0
    ensures performance >= 0.0 ==> r == performance * 10.0
  {
    (if performance >= 0.0 then performance else -performance) * 10.0
  }

  lemma BarLengthSymmetric(performance: real)
    ensures BarLength(-performance) == BarLength(performance)
  {
  }
}

=== FILE: stock_analysis.dfy ===
/** The analysis panel's colour rules: indicator colours against their
    thresholds, the sentiment trend icon, and the risk-level chip colour. */
module StockAnalysis {
  import opened Types

  datatype IndicatorColor = SuccessMain | ErrorMain

  /** `getIndicatorColor`: success only strictly above the threshold. */
  function GetIndicatorColor(value: real, threshold: real): (c: IndicatorColor)
    ensures c == SuccessMain <==> value > threshold
  {
    if value > threshold then SuccessMain else ErrorMain
  }

  const RSI_THRESHOLD: real := 50.0
  const MACD_THRESHOLD: real := 0.0
  const SENTIMENT_THRESHOLD: real := 50.0

  datatype PanelColors = PanelColors(rsi: IndicatorColor, macd: IndicatorColor, sentiment: IndicatorColor)

  /** The three indicator colours the panel shows for an analysis. */
  function PanelIndicatorColors(a: StockAnalysis): (c: PanelColors)
    ensures c.rsi == SuccessMain <==> a.technicalIndicators.rsi > 50.0
    ensures c.macd == SuccessMain <==> a.technicalIndicators.macd > 0.0
    ensures c.sentiment == SuccessMain <==> a.sentimentScore > 50.0
  {
    PanelColors(
      GetIndicatorColor(a.technicalIndicators.rsi, RSI_THRESHOLD),
      GetIndicatorColor(a.technicalIndicators.macd, MACD_THRESHOLD),
      GetIndicatorColor(a.sentimentScore, SENTIMENT_THRESHOLD))
  }

  lemma IndicatorAtThresholdIsError(threshold: real)
    ensures GetIndicatorColor(threshold, threshold) == ErrorMain
  {
  }

  datatype Trend = Up | Down

  /** The icon beside the sentiment score. */
  function SentimentTrend(sentimentScore: real): (t: Trend)
    ensures t == Up <==> sentimentScore > SENTIMENT_THRESHOLD
  {
    if sentimentScore > 50.0 then Up else Down
  }

  /** The icon points up exactly when the score is coloured success. */
  lemma TrendAgreesWithColor(a: StockAnalysis)
    ensures SentimentTrend(a.sentimentScore) == Up <==> PanelIndicatorColors(a).sentiment == SuccessMain
  {
  }

  /** ASCII lower-casing. `toLowerCase` also maps non-ASCII letters, but none
      of those lowers to a letter of "low", "medium" or "high", so the risk
      colour is the same either way. */
  function ToLower(c: char): char {
    if 'A' <= c <= 'Z' then (c as int + 32) as char else c
  }

  function Lower(s: string): (r: string)
    ensures |r| == |s|
    ensures forall i :: 0 <= i < |s| ==> r[i] == ToLower(s[i])
  {
    seq(|s|, i requires 0 <= i < |s| => ToLower(s[i]))
  }

  datatype RiskColor = Success | Warning | Error | Default

  /** `getRiskColor`. */
  function GetRiskColor(risk: string): (c: RiskColor)
    ensures c == Success <==> Lower(risk) == "low"
    ensures c == Warning <==> Lower(risk) == "medium"
    ensures c == Error <==> Lower(risk) == "high"
    ensures c == Default <==> Lower(risk) !in {"low", "medium", "high"}
  {
    var r := Lower(risk);
    if r == "low" then Success
    else if r == "medium" then Warning
    else if r == "high" then Error
    else Default
  }

  lemma LowerIdempotent(s: string)
    ensures Lower(Lower(s)) == Lower(s)
  {
    assert forall i :: 0 <= i < |s| ==> ToLower(ToLower(s[i])) == ToLower(s[i]);
  }

  /** The risk colour ignores case, and each colour comes from exactly one
      lower-cased word. */
  lemma RiskColorCaseInsensitive(risk: string)
    ensures GetRiskColor(Lower(risk)) == GetRiskColor(risk)
    ensures GetRiskColor(risk) == Success <==> Lower(risk) == "low"
    ensures GetRiskColor(risk) == Warning <==> Lower(risk) == "medium"
    ensures GetRiskColor(risk) == Error <==> Lower(risk) == "high"
    ensures GetRiskColor(risk) == Default <==> Lower(risk) !in {"low", "medium", "high"}
  {
    LowerIdempotent(risk);
  }

  lemma RiskColorExamples()
    ensures GetRiskColor("Low") == Success
    ensures GetRiskColor("MEDIUM") == Warning
    ensures GetRiskColor("High") == Error
    ensures GetRiskColor("Moderate") == Default
  {
    assert Lower("Low") == "low";
    assert Lower("MEDIUM") == "medium";
    assert Lower("High") == "high";
    assert Lower("Moderate")[0] == 'm' && Lower("Moderate")[1] == 'o';
  }
}

=== FILE: stock_calculator.dfy ===
/** The share-purchase calculator: the investment-amount text field with its
    input filter, the amount it stands for, and the per-stock purchase rows
    with their totals. */
module StockCalculator {
  import opened Wrappers
  import opened Types
  import opened Sums
  import opened JsNumbers

  const INITIAL_AMOUNT: string := "10000"

  predicate IsDigit(c: char) { '0' <= c <= '9' }

  /** Index of the first non-digit at or after `i`. */
  function SkipDigits(s: string, i: nat): (j: nat)
    requires i <= |s|
    ensures i <= j <= |s|
    ensures forall k :: i <= k < j ==> IsDigit(s[k])
    ensures j < |s| ==> !IsDigit(s[j])
    decreases |s| - i
  {
    if i < |s| && IsDigit(s[i]) then SkipDigits(s, i + 1) else i
  }

  /** The filter `/^\d*\.?\d*$/`, read left to right as the pattern is:
      a run of digits, an optional dot, a run of digits, the end. */
  predicate MatchesAmountPattern(s: string) {
    var i := SkipDigits(s, 0);
    var j := if i < |s| && s[i] == '.' then i + 1 else i;
    SkipDigits(s, j) == |s|
  }

  /** The same language stated by its contents: only digits and dots, and no
      two dots. */
  predicate WellFormedAmount(s: string) {
    && (forall k :: 0 <= k < |s| ==> IsDigit(s[k]) || s[k] == '.')
    && (forall i, j :: 0 <= i < j < |s| && s[i] == '.' ==> s[j] != '.')
  }

  /** The pattern accepts exactly the well-formed amounts. */
  lemma PatternIsWellFormed(s: string)
    ensures MatchesAmountPattern(s) <==> WellFormedAmount(s)
  {
    var i := SkipDigits(s, 0);
    if i < |s| && s[i] == '.' {
      var j := SkipDigits(s, i + 1);
      if j < |s| {
        assert !IsDigit(s[j]) && s[i] == '.' && i < j;
      }
    }
  }

  /** `handleAmountChange`: an edit is stored when it passes the filter and is
      dropped otherwise. */
  function HandleAmountChange(stored: string, edit: string): (r: string)
    ensures WellFormedAmount(edit) ==> r == edit
    ensures !WellFormedAmount(edit) ==> r == stored
    ensures WellFormedAmount(stored) ==> WellFormedAmount(r)
  {
    PatternIsWellFormed(edit);
    if MatchesAmountPattern(edit) then edit else stored
  }

  lemma EmptyAndDotAccepted()
    ensures WellFormedAmount("") && WellFormedAmount(".")
    ensures WellFormedAmount(INITIAL_AMOUNT)
    ensures !WellFormedAmount("1.2.3") && !WellFormedAmount("-5")
  {
    assert "1.2.3"[1] == '.' && "1.2.3"[3] == '.';
    assert !IsDigit("-5"[0]);
  }

  function DigitValue(c: char): nat
    requires IsDigit(c)
  {
    (c as int - '0' as int) as nat
  }

  /** The value of a run of decimal digits, most significant first. */
  function DigitsValue(ds: string): nat
    requires forall k :: 0 <= k < |ds| ==> IsDigit(ds[k])
  {
    if ds == [] then 0 else DigitsValue(ds[..|ds| - 1]) * 10 + DigitValue(ds[|ds| - 1])
  }

  function Pow10(n: nat): (r: nat)
    ensures r >= 1
  {
    if n == 0 then 1 else 10 * Pow10(n - 1)
  }

  /** Position of the dot of a well-formed amount, or its length. */
  function DotIndex(s: string): (d: nat)
    ensures d <= |s|
    ensures d < |s| ==> s[d] == '.'
    ensures forall k :: 0 <= k < d ==> s[k] != '.'
  {
    if s == [] then 0
    else if s[0] == '.' then 0
    else 1 + DotIndex(s[1..])
  }

  /** `parseFloat` of a well-formed amount: `None` (NaN) when it holds no
      digit, as for `""` and `"."`. */
  function ParseAmount(s: string): (r: Option<real>)
    requires WellFormedAmount(s)
    ensures r.None? <==> forall k :: 0 <= k < |s| ==> !IsDigit(s[k])
    ensures r.Some? ==> r.value >= 0.0
  {
    var d := DotIndex(s);
    if d == 0 && |s| <= 1 then
      assert forall k :: 0 <= k < |s| ==> s[k] == '.';
      None
    else
      assert IsDigit(s[if d > 0 then 0 else 1]);
      var whole := s[..d];
      var frac := if d < |s| then s[d + 1..] else [];
      Some(DigitsValue(whole) as real + DigitsValue(frac) as real / Pow10(|frac|) as real)
  }

  /** The digits of an amount read as one integer, skipping the dot. */
  function Mantissa(s: string): nat
    requires forall k :: 0 <= k < |s| ==> IsDigit(s[k]) || s[k] == '.'
  {
    if s == [] then 0
    else if s[|s| - 1] == '.' then Mantissa(s[..|s| - 1])
    else Mantissa(s[..|s| - 1]) * 10 + DigitValue(s[|s| - 1])
  }

  /** The number of characters after the first dot; 0 without a dot. */
  function Scale(s: string): nat {
    if s == [] then 0 else if s[0] == '.' then |s| - 1 else Scale(s[1..])
  }

  lemma {:induction false} MantissaOfDigits(t: string)
    requires forall k :: 0 <= k < |t| ==> IsDigit(t[k])
    ensures Mantissa(t) == DigitsValue(t)
    decreases |t|
  {
    if t != [] {
      MantissaOfDigits(t[..|t| - 1]);
    }
  }

  /** Appending digits shifts the mantissa read so far. */
  lemma {:induction false} MantissaAppend(a: string, b: string)
    requires forall k :: 0 <= k < |a| ==> IsDigit(a[k]) || a[k] == '.'
    requires forall k :: 0 <= k < |b| ==> IsDigit(b[k])
    ensures Mantissa(a + b) == Mantissa(a) * Pow10(|b|) + DigitsValue(b)
    decreases |b|
  {
    if b == [] {
      assert a + b == a;
    } else {
      var b' := b[..|b| - 1];
      assert (a + b)[..|a + b| - 1] == a + b';
      assert (a + b)[|a + b| - 1] == b[|b| - 1];
      MantissaAppend(a, b');
      var m, q, d, x := Mantissa(a), Pow10(|b'|), DigitsValue(b'), DigitValue(b[|b| - 1]);
      assert Mantissa(a + b) == Mantissa(a + b') * 10 + x;
      assert Pow10(|b|) == 10 * q;
      assert DigitsValue(b) == d * 10 + x;
      ShiftDigit(m, q, d, x);
    }
  }

  lemma ShiftDigit(m: nat, q: nat, d: nat, x: nat)
    ensures (m * q + d) * 10 + x == m * (10 * q) + (d * 10 + x)
  {
  }

  lemma {:induction false} ScaleAtDot(s: string)
    ensures Scale(s) == if DotIndex(s) < |s| then |s| - DotIndex(s) - 1 else 0
    decreases |s|
  {
    if s != [] && s[0] != '.' {
      ScaleAtDot(s[1..]);
    }
  }

  /** The integer part and the fraction digits of a well-formed amount. */
  function WholePart(s: string): string
    requires WellFormedAmount(s)
  {
    s[..DotIndex(s)]
  }

  function FractionPart(s: string): string
    requires WellFormedAmount(s)
  {
    if DotIndex(s) < |s| then s[DotIndex(s) + 1..] else []
  }

  lemma PartsAreDigits(s: string)
    requires WellFormedAmount(s)
    ensures forall k :: 0 <= k < |WholePart(s)| ==> IsDigit(WholePart(s)[k])
    ensures forall k :: 0 <= k < |FractionPart(s)| ==> IsDigit(FractionPart(s)[k])
    ensures |FractionPart(s)| == Scale(s)
  {
    ScaleAtDot(s);
    var d := DotIndex(s);
    if d < |s| {
      forall k | 0 <= k < |FractionPart(s)|
        ensures IsDigit(FractionPart(s)[k])
      {
        assert FractionPart(s)[k] == s[d + 1 + k];
        assert s[d] == '.';
      }
    }
  }

  lemma MantissaOfParts(s: string)
    requires WellFormedAmount(s)
    ensures PartsAreDigitsFact(s) &&
      Mantissa(s) == DigitsValue(WholePart(s)) * Pow10(Scale(s)) + DigitsValue(FractionPart(s))
  {
    PartsAreDigits(s);
    var whole, frac := WholePart(s), FractionPart(s);
    MantissaOfDigits(whole);
    var w := DigitsValue(whole);
    if DotIndex(s) < |s| {
      var head := whole + ".";
      assert forall k :: 0 <= k < |head| ==> IsDigit(head[k]) || head[k] == '.';
      assert head[..|head| - 1] == whole;
      assert Mantissa(head) == w;
      assert s == head + frac;
      MantissaAppend(head, frac);
      assert Mantissa(s) == w * Pow10(|frac|) + DigitsValue(frac);
    } else {
      assert whole == s;
      assert frac == [];
    }
  }

  predicate PartsAreDigitsFact(s: string)
    requires WellFormedAmount(s)
  {
    && (forall k :: 0 <= k < |WholePart(s)| ==> IsDigit(WholePart(s)[k]))
    && (forall k :: 0 <= k < |FractionPart(s)| ==> IsDigit(FractionPart(s)[k]))
  }

  lemma ParseAmountOfParts(s: string)
    requires WellFormedAmount(s)
    ensures PartsAreDigitsFact(s)
    ensures ParseAmount(s).Some? ==>
      ParseAmount(s).value ==
        DigitsValue(WholePart(s)) as real + DigitsValue(FractionPart(s)) as real / Pow10(Scale(s)) as real
  {
    PartsAreDigits(s);
  }

  /** The value `parseFloat` gives a well-formed amount: its digits read as one
      integer, divided by ten to the number of digits after the dot. */
  lemma ParseAmountValue(s: string)
    requires WellFormedAmount(s)
    ensures ParseAmount(s).Some? ==>
      ParseAmount(s).value == Mantissa(s) as real / Pow10(Scale(s)) as real
  {
    ParseAmountOfParts(s);
    MantissaOfParts(s);
    PlacePoint(DigitsValue(WholePart(s)), DigitsValue(FractionPart(s)), Pow10(Scale(s)));
  }

  lemma DivideByOne(m: real, q: real)
    requires q == 1.0
    ensures m / q == m
  {
  }

  lemma PlacePoint(w: nat, f: nat, p: nat)
    requires p >= 1
    ensures w as real + f as real / p as real == (w * p + f) as real / p as real
  {
    assert (w * p + f) as real == w as real * p as real + f as real;
  }

  /** Without a dot, the amount is its digits. */
  lemma WholeAmountValue(s: string)
    requires s != [] && forall k :: 0 <= k < |s| ==> IsDigit(s[k])
    ensures WellFormedAmount(s) && ParseAmount(s) == Some(DigitsValue(s) as real)
  {
    assert forall k :: 0 <= k < |s| ==> s[k] != '.';
    assert WellFormedAmount(s);
    ParseAmountValue(s);
    MantissaOfDigits(s);
    ScaleAtDot(s);
    assert DotIndex(s) == |s|;
    assert Pow10(Scale(s)) == 1;
    assert IsDigit(s[0]);
    assert ParseAmount(s).Some?;
    var v := ParseAmount(s).value;
    var m, q := Mantissa(s) as real, Pow10(Scale(s)) as real;
    assert v == m / q;
    assert q == 1.0;
    DivideByOne(m, q);
    assert m == DigitsValue(s) as real;
  }

  /** `parseFloat(investmentAmount) || 0`. */
  function TotalAmount(s: string): (r: real)
    requires WellFormedAmount(s)
    ensures r >= 0.0
    ensures (forall k :: 0 <= k < |s| ==> !IsDigit(s[k])) ==> r == 0.0
  {
    ParseAmount(s).GetOr(0.0)
  }

  lemma EmptyAmountsAreZero()
    ensures TotalAmount("") == 0.0 && TotalAmount(".") == 0.0
  {
    assert !IsDigit("."[0]);
  }

  lemma InitialAmountValue()
    ensures TotalAmount(INITIAL_AMOUNT) == 10000.0
  {
    EmptyAndDotAccepted();
    var s := INITIAL_AMOUNT;
    assert DotIndex(s[4..]) == 1;
    assert DotIndex(s[3..]) == 2;
    assert DotIndex(s[2..]) == 3;
    assert DotIndex(s[1..]) == 4;
    assert DotIndex(s) == 5;
    assert s[..5] == s;
    assert s[..4] == "1000" && s[..3] == "100" && s[..2] == "10" && s[..1] == "1";
    assert "1"[..0] == "" && "10"[..1] == "1" && "100"[..2] == "10" && "1000"[..3] == "100";
    assert DigitsValue("1") == 1;
    assert DigitsValue("10") == 10;
    assert DigitsValue("100") == 100;
    assert DigitsValue("1000") == 1000;
  }

  lemma FractionalAmountValue()
    ensures WellFormedAmount("12.5")
    ensures TotalAmount("12.5") == 12.5
  {
    var s := "12.5";
    assert s[1..] == "2.5" && s[2..] == ".5";
    assert DotIndex(s) == 2;
    assert s[..2] == "12" && s[3..] == "5";
    assert "12"[..1] == "1";
    assert DigitsValue("12") == 12;
    assert "5"[..0] == "";
    assert DigitsValue("5") == 5;
  }

  /** One row of the table. A zero price divides by zero: the share count is
      an infinity or NaN, and the value and remainder are NaN. */
  datatype Purchase =
    | Bought(shares: int, value: real, remaining: real)
    | ZeroPrice(quotient: JsNumber)

  /** The row's `value`: `Math.floor(shares) * price`, which is an infinity
      (or NaN) times zero on a zero price. */
  function RowValue(p: Purchase): JsNumber {
    match p
    case Bought(_, value, _) => Num(value)
    case ZeroPrice(quotient) => Mul(quotient, 0.0)
  }

  /** The row's `remaining`: `amount` minus a NaN value is NaN. */
  function RowRemaining(p: Purchase): JsNumber {
    match p
    case Bought(_, _, remaining) => Num(remaining)
    case ZeroPrice(_) => NaN
  }

  /** `calculateStockPurchase`: the whole shares that `amount` buys at `price`. */
  function CalculateStockPurchase(price: real, amount: real): (p: Purchase)
    ensures p.ZeroPrice? <==> price == 0.0
    ensures p.ZeroPrice? ==>
              && (p.quotient.PosInf? <==> amount > 0.0)
              && (p.quotient.NegInf? <==> amount < 0.0)
              && (p.quotient.NaN? <==> amount == 0.0)
              && RowValue(p).NaN? && RowRemaining(p).NaN?
    ensures p.Bought? ==> p.value == p.shares as real * price && p.value + p.remaining == amount
    ensures price > 0.0 ==>
              && p.Bought?
              && p.value <= amount < p.value + price
              && 0.0 <= p.remaining < price
              && (amount >= 0.0 ==> p.shares >= 0)
    ensures price < 0.0 ==>
              && p.Bought?
              && p.value + price < amount <= p.value
              && price < p.remaining <= 0.0
              && (amount >= 0.0 ==> p.shares <= 0)
  {
    if price == 0.0 then
      ZeroPrice(Div(amount, price))
    else
      var shares := (amount / price).Floor;
      FloorBounds(amount, price);
      Bought(shares, shares as real * price, amount - shares as real * price)
  }

  /** The floor of a quotient, multiplied back, brackets the dividend; a
      negative divisor turns the bracket round. */
  lemma FloorBounds(amount: real, price: real)
    ensures price > 0.0 ==>
              && (amount / price).Floor as real * price <= amount
              && amount < ((amount / price).Floor as real + 1.0) * price
              && (amount >= 0.0 ==> (amount / price).Floor >= 0)
    ensures price < 0.0 ==>
              && amount <= (amount / price).Floor as real * price
              && ((amount / price).Floor as real + 1.0) * price < amount
              && (amount >= 0.0 ==> (amount / price).Floor <= 0)
  {
    if price != 0.0 {
      var q := amount / price;
      var f := q.Floor as real;
      assert f <= q < f + 1.0;
      assert q * price == amount;
      if price > 0.0 {
        MulMonotone(f, q, price);
        MulStrict(q, f + 1.0, price);
      } else {
        MulMonotone(f, q, -price);
        MulStrict(q, f + 1.0, -price);
        if amount >= 0.0 {
          assert q <= 0.0 by { MulMonotone(0.0, amount, -1.0 / price); }
        }
      }
    }
  }

  lemma MulMonotone(a: real, b: real, c: real)
    requires a <= b && c > 0.0
    ensures a * c <= b * c
  {
  }

  lemma MulStrict(a: real, b: real, c: real)
    requires a < b && c > 0.0
    ensures a * c < b * c
  {
  }

  /** The rows: every stock gets the whole amount on its own. */
  function Calculations(stocks: seq<StockData>, amount: real): (rows: seq<Purchase>)
    ensures |rows| == |stocks|
    ensures forall i :: 0 <= i < |rows| ==> rows[i] == CalculateStockPurchase(stocks[i].price, amount)
  {
    seq(|stocks|, i requires 0 <= i < |stocks| => CalculateStockPurchase(stocks[i].price, amount))
  }

  function RowValues(rows: seq<Purchase>): (r: seq<JsNumber>)
    ensures |r| == |rows| && forall i :: 0 <= i < |r| ==> r[i] == RowValue(rows[i])
  {
    seq(|rows|, i requires 0 <= i < |rows| => RowValue(rows[i]))
  }

  function RowRemainders(rows: seq<Purchase>): (r: seq<JsNumber>)
    ensures |r| == |rows| && forall i :: 0 <= i < |r| ==> r[i] == RowRemaining(rows[i])
  {
    seq(|rows|, i requires 0 <= i < |rows| => RowRemaining(rows[i]))
  }

  /** `reduce((sum, calc) => sum + calc.value, 0)`. */
  function TotalValue(rows: seq<Purchase>): JsNumber {
    Total(RowValues(rows))
  }

  /** `reduce((sum, calc) => sum + calc.remaining, 0)`. */
  function TotalRemaining(rows: seq<Purchase>): JsNumber {
    Total(RowRemainders(rows))
  }

  /** Rows bought with no negative value (resp. no negative remainder) have
      a finite, non-negative total. */
  lemma TotalsNonNegative(rows: seq<Purchase>)
    ensures (forall i :: 0 <= i < |rows| ==> rows[i].Bought? && rows[i].value >= 0.0) ==>
              TotalValue(rows).Num? && TotalValue(rows).value >= 0.0
    ensures (forall i :: 0 <= i < |rows| ==> rows[i].Bought? && rows[i].remaining >= 0.0) ==>
              TotalRemaining(rows).Num? && TotalRemaining(rows).value >= 0.0
  {
    if forall i :: 0 <= i < |rows| ==> rows[i].Bought? && rows[i].value >= 0.0 {
      TotalOfFinite(RowValues(rows));
      SumNonNegative(Reals(RowValues(rows)));
    }
    if forall i :: 0 <= i < |rows| ==> rows[i].Bought? && rows[i].remaining >= 0.0 {
      TotalOfFinite(RowRemainders(rows));
      SumNonNegative(Reals(RowRemainders(rows)));
    }
  }

  /** Value and remainder split every bought row's amount, so the two totals
      are finite and add up to the amount once per row. */
  lemma TotalsPartition(rows: seq<Purchase>, amount: real)
    requires forall i :: 0 <= i < |rows| ==> rows[i].Bought? && rows[i].value + rows[i].remaining == amount
    ensures TotalValue(rows).Num? && TotalRemaining(rows).Num?
    ensures TotalValue(rows).value + TotalRemaining(rows).value == |rows| as real * amount
  {
    TotalOfFinite(RowValues(rows));
    TotalOfFinite(RowRemainders(rows));
    SumOfPairs(Reals(RowValues(rows)), Reals(RowRemainders(rows)), amount);
  }

  /** A single zero-price row, whose quotient is an infinity or NaN as
      `CalculateStockPurchase` makes it, turns both totals into NaN. */
  lemma TotalsWithZeroPrice(rows: seq<Purchase>, k: nat)
    requires k < |rows| && rows[k].ZeroPrice? && !rows[k].quotient.Num?
    ensures TotalValue(rows).NaN? && TotalRemaining(rows).NaN?
  {
    assert RowValues(rows)[k].NaN?;
    TotalWithNaN(RowValues(rows), k);
    TotalWithNaN(RowRemainders(rows), k);
  }

  /** Totals of the table: every stock gets the full amount on its own, so
      the totals add up to stocks × amount unless some price is zero, in
      which case both totals are NaN. */
  lemma CalculatorTotals(stocks: seq<StockData>, amount: real)
    ensures (forall i :: 0 <= i < |stocks| ==> stocks[i].price != 0.0) ==>
              && TotalValue(Calculations(stocks, amount)).Num?
              && TotalRemaining(Calculations(stocks, amount)).Num?
              && TotalValue(Calculations(stocks, amount)).value + TotalRemaining(Calculations(stocks, amount)).value ==
                   |stocks| as real * amount
    ensures (exists i :: 0 <= i < |stocks| && stocks[i].price == 0.0) ==>
              TotalValue(Calculations(stocks, amount)).NaN? && TotalRemaining(Calculations(stocks, amount)).NaN?
  {
    var rows := Calculations(stocks, amount);
    if forall i :: 0 <= i < |stocks| ==> stocks[i].price != 0.0 {
      forall i | 0 <= i < |rows|
        ensures rows[i].Bought? && rows[i].value + rows[i].remaining == amount
      {
        assert rows[i] == CalculateStockPurchase(stocks[i].price, amount);
      }
      TotalsPartition(rows, amount);
      assert |rows| as real == |stocks| as real;
    }
    if exists i :: 0 <= i < |stocks| && stocks[i].price == 0.0 {
      var k :| 0 <= k < |stocks| && stocks[k].price == 0.0;
      assert rows[k] == CalculateStockPurchase(stocks[k].price, amount);
      TotalsWithZeroPrice(rows, k);
    }
  }
}

=== FILE: stock_card.dfy ===
/** A stock card: the price change against the previous close, its sign and
    the chip built from it, the watchlist button, and the scaled market cap
    and volume. */
module StockCard {
  import Display
  import opened Wrappers
  import opened JsNumbers
  import opened Types

  /** The fields of a card's stock that this model reads. `previousClose` is
      `None` when the record has no such field, which reads as `undefined`. */
  datatype CardStock = CardStock(symbol: string, price: real, previousClose: Option<real>, marketCap: real, volume: int)

  /** `priceChange`: subtracting `undefined` gives NaN. */
  function PriceChange(s: CardStock): (r: JsNumber)
    ensures r.Num? <==> s.previousClose.Some?
    ensures r.Num? ==> r.value + s.previousClose.value == s.price
    ensures !r.Num? ==> r.NaN?
  {
    match s.previousClose
    case None => NaN
    case Some(close) => Num(s.price - close)
  }

  /** `isPositive`: an unchanged price counts as positive, a NaN change does not. */
  predicate IsPositive(s: CardStock) {
    AtLeast(PriceChange(s), 0.0)
  }

  lemma PositiveIffNotBelowClose(s: CardStock)
    ensures IsPositive(s) <==> s.previousClose.Some? && s.price >= s.previousClose.value
    ensures s.previousClose == Some(s.price) ==> IsPositive(s)
  {
  }

  /** `priceChangePercent`: NaN without a previous close; a zero previous
      close divides by zero. */
  function PriceChangePercent(s: CardStock): (r: JsNumber)
    ensures s.previousClose.None? ==> r.NaN?
    ensures s.previousClose.Some? && s.previousClose.value != 0.0 ==>
              r.Num? && r.value * s.previousClose.value == (s.price - s.previousClose.value) * 100.0
    ensures s.previousClose == Some(0.0) ==>
              && (r.PosInf? <==> s.price > 0.0)
              && (r.NegInf? <==> s.price < 0.0)
              && (r.NaN? <==> s.price == 0.0)
  {
    match s.previousClose
    case None => NaN
    case Some(close) => Mul(Div(s.price - close, close), 100.0)
  }

  /** With a positive previous close the percentage has the sign of the
      change; with a negative one the sign flips; with none it is NaN and
      neither sign. */
  lemma PercentHasChangeSign(s: CardStock)
    ensures s.previousClose.Some? && s.previousClose.value > 0.0 ==>
              && (Greater(PriceChangePercent(s), 0.0) <==> Greater(PriceChange(s), 0.0))
              && (AtLeast(PriceChangePercent(s), 0.0) <==> IsPositive(s))
    ensures s.previousClose.Some? && s.previousClose.value < 0.0 ==>
              (AtLeast(PriceChangePercent(s), 0.0) <==> s.price <= s.previousClose.value)
    ensures s.previousClose.None? ==>
              !AtLeast(PriceChangePercent(s), 0.0) && !IsPositive(s)
  {
    if s.previousClose.Some? && s.previousClose.value != 0.0 {
      var c := s.previousClose.value;
      var d := s.price - c;
      var q := d / c;
      assert q * c == d;
      if c > 0.0 {
        if d > 0.0 { assert q > 0.0; } else if d < 0.0 { assert q < 0.0; } else { assert q == 0.0; }
      } else {
        if d > 0.0 { assert q < 0.0; } else if d < 0.0 { assert q > 0.0; } else { assert q == 0.0; }
      }
    }
  }

  /** A dashboard stock shown on a card: the processed record has no
      previous close. */
  function CardOf(d: StockData): (c: CardStock)
    ensures c.symbol == d.symbol && c.price == d.price
    ensures c.marketCap == d.marketCap && c.volume == d.volume
    ensures c.previousClose.None?
  {
    CardStock(d.symbol, d.price, None, d.marketCap, d.volume)
  }

  datatype ChipColor = Success | Error
  datatype TrendIcon = TrendingUp | TrendingDown

  /** The chip: `fixed` is the `toFixed(2)` text of the percentage. */
  datatype Chip = Chip(text: string, color: ChipColor, icon: TrendIcon)

  function PriceChip(s: CardStock, fixed: string): (c: Chip)
    requires Display.IsFixedText(fixed)
    ensures |c.text| > 0 && (c.text[0] == '+' <==> IsPositive(s))
    ensures c.text[|c.text| - 1] == '%'
    ensures |c.text| == |fixed| + (if IsPositive(s) then 2 else 1)
    ensures c.text[|c.text| - 1 - |fixed|..|c.text| - 1] == fixed
    ensures c.color == Success <==> IsPositive(s)
    ensures c.icon == TrendingUp <==> IsPositive(s)
  {
    var positive := IsPositive(s);
    var text := Display.Signed(positive, fixed);
    assert (text + "%")[..|text|] == text;
    Chip(text + "%",
         if positive then Success else Error,
         if positive then TrendingUp else TrendingDown)
  }

  /** The callback a watchlist click invokes, with the symbol it passes. */
  datatype WatchlistCall = RemoveFromWatchlist(symbol: string) | AddToWatchlist(symbol: string)

  /** `handleWatchlistClick`. */
  function WatchlistClick(s: CardStock, isInWatchlist: bool): (c: WatchlistCall)
    ensures c.symbol == s.symbol
    ensures c.RemoveFromWatchlist? <==> isInWatchlist
  {
    if isInWatchlist then RemoveFromWatchlist(s.symbol) else AddToWatchlist(s.symbol)
  }

  /** Once the parent has flipped the membership flag, the next click undoes
      the first. */
  lemma WatchlistClickAlternates(s: CardStock, isInWatchlist: bool)
    ensures WatchlistClick(s, isInWatchlist).RemoveFromWatchlist? != WatchlistClick(s, !isInWatchlist).RemoveFromWatchlist?
    ensures WatchlistClick(s, isInWatchlist).symbol == WatchlistClick(s, !isInWatchlist).symbol
  {
  }

  /** Market cap shown in billions, volume in millions. */
  function ShownMarketCap(s: CardStock): (r: real)
    ensures r * Display.BILLION == s.marketCap
  {
    Display.BillionsRoundTrip(s.marketCap);
    Display.Billions(s.marketCap)
  }

  function ShownVolume(s: CardStock): (r: real)
    ensures r * Display.MILLION == s.volume as real
  {
    Display.MillionsRoundTrip(s.volume as real);
    Display.Millions(s.volume as real)
  }

  /** Every card built from a processed stock shows a NaN percentage in a red
      chip with a falling arrow, whatever the price did. */
  lemma ProcessedCardsShowNaN(d: StockData)
    ensures !IsPositive(CardOf(d))
    ensures PriceChangePercent(CardOf(d)).NaN?
    ensures PriceChip(CardOf(d), "NaN") == Chip("NaN%", Error, TrendingDown)
  {
  }
}

=== FILE: stock_chart.dfy ===
/** The bar chart of one metric across the stocks: its label, the plotted
    (unit-scaled) values, and the background and border colour tiers. */
module StockChart {
  import opened Types
  import Display

  datatype Metric = AiScore | GrowthScore | RiskScore | Price | MarketCap | Volume

  /** `getMetricLabel`. */
  function MetricLabel(m: Metric): string {
    match m
    case AiScore => "AI Score"
    case GrowthScore => "Growth Score"
    case RiskScore => "Risk Score"
    case Price => "Price ($)"
    case MarketCap => "Market Cap ($B)"
    case Volume => "Volume (M)"
  }

  lemma MetricLabelsDistinct(a: Metric, b: Metric)
    ensures MetricLabel(a) == MetricLabel(b) <==> a == b
  {
  }

  /** `stock[metric]`, the raw value. */
  function MetricValue(stock: StockData, m: Metric): real {
    match m
    case AiScore => stock.aiScore
    case GrowthScore => stock.growthScore
    case RiskScore => stock.riskScore
    case Price => stock.price
    case MarketCap => stock.marketCap
    case Volume => stock.volume as real
  }

  /** `formatValue`: market cap in billions, volume in millions, the rest as is. */
  function FormatValue(value: real, m: Metric): (r: real)
    ensures m == MarketCap ==> r * Display.BILLION == value
    ensures m == Volume ==> r * Display.MILLION == value
    ensures m != MarketCap && m != Volume ==> r == value
  {
    match m
    case MarketCap => Display.Billions(value)
    case Volume => Display.Millions(value)
    case _ => value
  }

  /** The colour family a bar falls in. */
  datatype Tier = Red | Yellow | Green

  /** For risk a high value is bad; for every other metric a high value is good. */
  function TierOf(m: Metric, value: real): Tier {
    if m == RiskScore then
      (if value > 7.0 then Red else if value > 4.0 then Yellow else Green)
    else
      (if value > 8.0 then Green else if value > 6.0 then Yellow else Red)
  }

  function TierBackground(t: Tier): string {
    match t
    case Red => "rgba(255, 99, 132, 0.8)"
    case Yellow => "rgba(255, 206, 86, 0.8)"
    case Green => "rgba(75, 192, 192, 0.8)"
  }

  function TierBorder(t: Tier): string {
    match t
    case Red => "rgb(255, 99, 132)"
    case Yellow => "rgb(255, 206, 86)"
    case Green => "rgb(75, 192, 192)"
  }

  /** The `backgroundColor` callback, as the chart writes it. */
  function BackgroundColor(m: Metric, value: real): (r: string)
    ensures r == TierBackground(TierOf(m, value))
  {
    if m == RiskScore then
      (if value > 7.0 then "rgba(255, 99, 132, 0.8)"
       else if value > 4.0 then "rgba(255, 206, 86, 0.8)"
       else "rgba(75, 192, 192, 0.8)")
    else
      (if value > 8.0 then "rgba(75, 192, 192, 0.8)"
       else if value > 6.0 then "rgba(255, 206, 86, 0.8)"
       else "rgba(255, 99, 132, 0.8)")
  }

  /** The `borderColor` callback, as the chart writes it. */
  function BorderColor(m: Metric, value: real): (r: string)
    ensures r == TierBorder(TierOf(m, value))
  {
    if m == RiskScore then
      (if value > 7.0 then "rgb(255, 99, 132)"
       else if value > 4.0 then "rgb(255, 206, 86)"
       else "rgb(75, 192, 192)")
    else
      (if value > 8.0 then "rgb(75, 192, 192)"
       else if value > 6.0 then "rgb(255, 206, 86)"
       else "rgb(255, 99, 132)")
  }

  /** The two callbacks always agree on the tier, and the tiers are the
      thresholds 7/4 for risk and 8/6 otherwise, first match wins. */
  lemma ColorsShareTier(m: Metric, value: real)
    ensures BackgroundColor(m, value) == TierBackground(TierOf(m, value))
    ensures BorderColor(m, value) == TierBorder(TierOf(m, value))
    ensures m == RiskScore ==>
      (TierOf(m, value) == Red <==> value > 7.0) && (TierOf(m, value) == Green <==> value <= 4.0)
    ensures m != RiskScore ==>
      (TierOf(m, value) == Green <==> value > 8.0) && (TierOf(m, value) == Red <==> value <= 6.0)
  {
  }

  datatype ChartData = ChartData(
    labels: seq<string>,
    datasetLabel: string,
    data: seq<real>,
    backgroundColor: seq<string>,
    borderColor: seq<string>)

  /** The chart's `data` object: one entry per stock in each array, in the
      stocks' order; the plotted value is scaled while the colour is chosen on
      the raw value. */
  function Chart(stocks: seq<StockData>, m: Metric): (c: ChartData)
    ensures |c.labels| == |c.data| == |c.backgroundColor| == |c.borderColor| == |stocks|
    ensures c.datasetLabel == MetricLabel(m)
    ensures forall i :: 0 <= i < |stocks| ==>
      && c.labels[i] == stocks[i].symbol
      && c.data[i] == FormatValue(MetricValue(stocks[i], m), m)
      && c.backgroundColor[i] == TierBackground(TierOf(m, MetricValue(stocks[i], m)))
      && c.borderColor[i] == TierBorder(TierOf(m, MetricValue(stocks[i], m)))
  {
    var n := |stocks|;
    var c := ChartData(
      seq(n, i requires 0 <= i < n => stocks[i].symbol),
      MetricLabel(m),
      seq(n, i requires 0 <= i < n => FormatValue(MetricValue(stocks[i], m), m)),
      seq(n, i requires 0 <= i < n => BackgroundColor(m, MetricValue(stocks[i], m))),
      seq(n, i requires 0 <= i < n => BorderColor(m, MetricValue(stocks[i], m))));
    assert forall i :: 0 <= i < n ==>
      BackgroundColor(m, MetricValue(stocks[i], m)) == TierBackground(TierOf(m, MetricValue(stocks[i], m))) &&
      BorderColor(m, MetricValue(stocks[i], m)) == TierBorder(TierOf(m, MetricValue(stocks[i], m)));
    c
  }

  /** Colours come from the raw value: a market cap of a few billion dollars
      plots as a small number but is coloured green. */
  lemma TierUsesRawValue(stock: StockData)
    requires stock.marketCap == 3.0 * Display.BILLION
    ensures FormatValue(MetricValue(stock, MarketCap), MarketCap) == 3.0
    ensures TierOf(MarketCap, MetricValue(stock, MarketCap)) == Green
    ensures TierOf(MarketCap, FormatValue(MetricValue(stock, MarketCap), MarketCap)) == Red
  {
  }
}

=== FILE: stock_service.dfy ===
/** The scoring and record-normalisation rules of the stock service: the AI,
    growth and risk scores, the price prediction, and the defaulting that turns
    an upstream analysis object into a `StockData` record.

    The upstream object is given already parsed: `parseFloat`/`parseInt` of a
    field is an `Option` whose `None` stands for NaN. Only `currentPrice` is
    kept raw, because the prediction looks at its truthiness as well as at its
    parsed value. */
module StockService {
  import opened Wrappers
  import opened Types
  import opened JsNumbers
  import Display

  /** A raw JSON field: missing (or null), a JSON number, or a string together
      with what `parseFloat` makes of it. */
  datatype RawValue = Absent | Number(x: real) | Text(s: string, parsed: Option<real>)

  /** JavaScript truthiness of a raw field. */
  predicate Truthy(v: RawValue) {
    match v
    case Absent => false
    case Number(x) => x != 0.0
    case Text(s, _) => s != ""
  }

  /** `parseFloat` of a raw field; `None` is NaN. */
  function ParseFloat(v: RawValue): Option<real> {
    match v
    case Absent => None
    case Number(x) => Some(x)
    case Text(_, p) => p
  }

  /** The `aiMetrics` object as it arrives, every field numeric. */
  datatype RawMetrics = RawMetrics(
    rndInvestment: real,
    patentCount: real,
    marketShare: real,
    revenueGrowth: real,
    aiAdoption: real)

  /** The SWOT-style `analysis` object; only its two lists are read. */
  datatype Swot = Swot(threats: seq<string>, strengths: seq<string>)

  /** The upstream analysis object handed to `processStockData`. */
  datatype RawData = RawData(
    name: Option<string>,
    currentPrice: RawValue,
    marketCap: Option<real>,
    peRatio: Option<real>,
    yearHigh: Option<real>,
    yearLow: Option<real>,
    volume: Option<int>,
    recommendation: Option<string>,
    aiMetrics: Option<RawMetrics>,
    analysis: Option<Swot>)

  const NEUTRAL_SCORE: real := 5.0
  const DEFAULT_RECOMMENDATION: string := "Hold"
  const DEFAULT_ADOPTION: real := 0.5

  function Min(a: real, b: real): real { if a <= b then a else b }
  function Max(a: real, b: real): real { if a >= b then a else b }

  /** `Math.min(Math.max(x, lo), hi)`. */
  function Clamp(x: real, lo: real, hi: real): real { Min(Max(x, lo), hi) }

  /** `parseFloat(x) || 0` for a parse result. */
  function OrZero(p: Option<real>): real { p.GetOr(0.0) }

  /** `x || fallback` for a string. */
  function OrString(s: Option<string>, fallback: string): string {
    if s.Some? && s.value != "" then s.value else fallback
  }

  /** `parseInt` of a number: truncation toward zero. */
  function Trunc(x: real): int {
    if x >= 0.0 then x.Floor else -((-x).Floor)
  }

  /** Metrics in the range the weights were designed for. */
  predicate NormalRange(m: RawMetrics) {
    && 0.0 <= m.rndInvestment
    && 0.0 <= m.patentCount
    && 0.0 <= m.marketShare
    && 0.0 <= m.aiAdoption <= 1.0
  }

  /** `calculateAIScore`: weights 0.3, 0.2, 0.2, 0.2 and 0.1 on R&D spend (capped
      at 10000), patents (capped at 1000), market share (capped at 100), revenue
      growth (clamped to [0, 100]) and the unclamped adoption figure, times 10. */
  function AIScore(metrics: Option<RawMetrics>): (r: real)
    ensures metrics.None? ==> r == NEUTRAL_SCORE
    ensures metrics.Some? && NormalRange(metrics.value) ==> 0.0 <= r <= 10.0
  {
    match metrics
    case None => NEUTRAL_SCORE
    case Some(m) =>
      var rnd := Min(m.rndInvestment / 10000.0, 1.0);
      var patents := Min(m.patentCount / 1000.0, 1.0);
      var share := Min(m.marketShare / 100.0, 1.0);
      var growth := Min(Max(m.revenueGrowth, 0.0) / 100.0, 1.0);
      var adoption := m.aiAdoption;
      (rnd * 0.3 + patents * 0.2 + share * 0.2 + growth * 0.2 + adoption * 0.1) * 10.0
  }

  /** Metrics `a` are nowhere above metrics `b`. */
  predicate Dominated(a: RawMetrics, b: RawMetrics) {
    && a.rndInvestment <= b.rndInvestment
    && a.patentCount <= b.patentCount
    && a.marketShare <= b.marketShare
    && a.revenueGrowth <= b.revenueGrowth
    && a.aiAdoption <= b.aiAdoption
  }

  lemma AIScoreMonotone(a: RawMetrics, b: RawMetrics)
    requires Dominated(a, b)
    ensures AIScore(Some(a)) <= AIScore(Some(b))
  {
  }

  /** The weights add up to one: every capped term at its cap and adoption 1
      give exactly the top of the scale. */
  lemma AIScoreSaturates(m: RawMetrics)
    requires m.rndInvestment >= 10000.0 && m.patentCount >= 1000.0
    requires m.marketShare >= 100.0 && m.revenueGrowth >= 100.0
    requires m.aiAdoption == 1.0
    ensures AIScore(Some(m)) == 10.0
  {
  }

  /** `calculateGrowthScore`: a tenth of the revenue growth, clamped to [0, 10]. */
  function GrowthScore(metrics: Option<RawMetrics>): (r: real)
    ensures metrics.None? ==> r == NEUTRAL_SCORE
    ensures 0.0 <= r <= 10.0
    ensures metrics.Some? && 0.0 <= metrics.value.revenueGrowth <= 100.0 ==>
              r == metrics.value.revenueGrowth / 10.0
    ensures metrics.Some? && metrics.value.revenueGrowth < 0.0 ==> r == 0.0
    ensures metrics.Some? && metrics.value.revenueGrowth > 100.0 ==> r == 10.0
  {
    match metrics
    case None => NEUTRAL_SCORE
    case Some(m) => Clamp(m.revenueGrowth / 10.0, 0.0, 10.0)
  }

  lemma GrowthScoreMonotone(a: RawMetrics, b: RawMetrics)
    requires a.revenueGrowth <= b.revenueGrowth
    ensures GrowthScore(Some(a)) <= GrowthScore(Some(b))
  {
  }

  /** `calculateRiskScore`: 5, plus 0.5 per threat, minus 0.3 per strength,
      clamped to [0, 10]; exactly 5 when there is no analysis. */
  function RiskScore(analysis: Option<Swot>): (r: real)
    ensures 0.0 <= r <= 10.0
    ensures analysis.None? ==> r == NEUTRAL_SCORE
    ensures analysis.Some? && |analysis.value.threats| == 0 && |analysis.value.strengths| == 0 ==>
              r == NEUTRAL_SCORE
  {
    match analysis
    case None => NEUTRAL_SCORE
    case Some(swot) =>
      var raw := NEUTRAL_SCORE + (|swot.threats| as real) * 0.5 - (|swot.strengths| as real) * 0.3;
      Clamp(raw, 0.0, 10.0)
  }

  /** Within the clamp, each threat and each strength moves the score by its
      weight. */
  lemma RiskScoreUnclamped(swot: Swot)
    requires 0.0 <= NEUTRAL_SCORE + (|swot.threats| as real) * 0.5 - (|swot.strengths| as real) * 0.3 <= 10.0
    ensures RiskScore(Some(swot)) == 5.0 + (|swot.threats| as real) * 0.5 - (|swot.strengths| as real) * 0.3
  {
  }

  lemma RiskScoreThreatRaises(swot: Swot, threat: string)
    ensures RiskScore(Some(swot.(threats := swot.threats + [threat]))) >= RiskScore(Some(swot))
  {
  }

  lemma RiskScoreStrengthLowers(swot: Swot, strength: string)
    ensures RiskScore(Some(swot.(strengths := swot.strengths + [strength]))) <= RiskScore(Some(swot))
  {
  }

  /** `data.aiMetrics?.revenueGrowth || 0`. */
  function PredictionGrowth(data: RawData): real {
    match data.aiMetrics
    case None => 0.0
    case Some(m) => m.revenueGrowth
  }

  /** `calculatePricePrediction`: 0 for a missing or falsy price, otherwise the
      parsed price grown by the revenue growth read as a percentage. A truthy
      price that `parseFloat` rejects gives NaN. */
  function PricePrediction(data: RawData): (r: JsNumber)
    ensures !Truthy(data.currentPrice) ==> r == Num(0.0)
    ensures Truthy(data.currentPrice) && ParseFloat(data.currentPrice).None? ==> r.NaN?
    ensures Truthy(data.currentPrice) && ParseFloat(data.currentPrice).Some? && PredictionGrowth(data) == 0.0 ==>
              r == Num(ParseFloat(data.currentPrice).value)
    ensures Truthy(data.currentPrice) && ParseFloat(data.currentPrice).Some? && ParseFloat(data.currentPrice).value > 0.0 ==>
              r.Num? && (r.value > ParseFloat(data.currentPrice).value <==> PredictionGrowth(data) > 0.0)
    // the gain over the price is the growth read as a percentage of it
    ensures Truthy(data.currentPrice) && ParseFloat(data.currentPrice).Some? ==>
              r.Num? && (r.value - ParseFloat(data.currentPrice).value) * 100.0 ==
                        ParseFloat(data.currentPrice).value * PredictionGrowth(data)
  {
    if !Truthy(data.currentPrice) then Num(0.0)
    else match ParseFloat(data.currentPrice)
      case None => NaN
      case Some(price) => Num(price * (1.0 + PredictionGrowth(data) / 100.0))
  }

  /** A price of 100 with 20% growth is predicted at 120. */
  lemma PricePredictionExample(data: RawData)
    requires data.currentPrice == Number(100.0)
    requires data.aiMetrics.Some? && data.aiMetrics.value.revenueGrowth == 20.0
    ensures PricePrediction(data) == Num(120.0)
  {
  }

  /** The prediction has no upper bound. */
  lemma PricePredictionUnbounded(bound: real) returns (data: RawData)
    ensures PricePrediction(data).Num? && PricePrediction(data).value > bound
  {
    var growth := if bound > 0.0 then bound * 100.0 else 0.0;
    data := RawData(None, Number(1.0), None, None, None, None, None, None,
                    Some(RawMetrics(0.0, 0.0, 0.0, growth, 0.0)), None);
    assert PricePrediction(data) == Num(1.0 * (1.0 + growth / 100.0));
  }

  /** The metrics copy stored in the record: failed parses become 0, the patent
      count is truncated to an integer, and an adoption of 0 or NaN becomes 0.5. */
  function DefaultedMetrics(metrics: Option<RawMetrics>): (r: AIMetrics)
    ensures r.aiAdoption != 0.0
    ensures metrics.None? ==> r == AIMetrics(0.0, 0, 0.0, 0.0, DEFAULT_ADOPTION)
    ensures metrics.Some? ==> r.revenueGrowth == metrics.value.revenueGrowth
    ensures metrics.Some? ==> r.rndInvestment == metrics.value.rndInvestment && r.marketShare == metrics.value.marketShare
    ensures metrics.Some? && metrics.value.aiAdoption != 0.0 ==> r.aiAdoption == metrics.value.aiAdoption
    ensures metrics.Some? && metrics.value.patentCount >= 0.0 ==>
              r.patentCount as real <= metrics.value.patentCount < r.patentCount as real + 1.0
  {
    match metrics
    case None => AIMetrics(0.0, 0, 0.0, 0.0, DEFAULT_ADOPTION)
    case Some(m) =>
      AIMetrics(m.rndInvestment, Trunc(m.patentCount), m.marketShare, m.revenueGrowth,
                if m.aiAdoption == 0.0 then DEFAULT_ADOPTION else m.aiAdoption)
  }

  /** `processStockData`: the record built from one upstream object. */
  function ProcessStockData(symbol: string, data: RawData): (r: StockData)
    ensures r.symbol == symbol
    ensures symbol != "" ==> r.name != ""
    ensures r.recommendation != ""
    ensures r.historicalPrices == []
    ensures Display.Billions(r.marketCap) == OrZero(data.marketCap)
    ensures 0.0 <= r.growthScore <= 10.0 && 0.0 <= r.riskScore <= 10.0
    ensures data.aiMetrics.None? ==> r.aiScore == NEUTRAL_SCORE && r.growthScore == NEUTRAL_SCORE
    ensures data.analysis.None? ==> r.riskScore == NEUTRAL_SCORE
    ensures data.aiMetrics.Some? && NormalRange(data.aiMetrics.value) ==> 0.0 <= r.aiScore <= 10.0
    ensures r.aiMetrics.aiAdoption != 0.0
    // what a successful parse or a truthy string passes through
    ensures data.name.Some? && data.name.value != "" ==> r.name == data.name.value
    ensures data.recommendation.Some? && data.recommendation.value != "" ==>
              r.recommendation == data.recommendation.value
    ensures ParseFloat(data.currentPrice).Some? ==> r.price == ParseFloat(data.currentPrice).value
    ensures data.peRatio.Some? ==> r.peRatio == data.peRatio.value
    ensures data.yearHigh.Some? ==> r.yearHigh == data.yearHigh.value
    ensures data.yearLow.Some? ==> r.yearLow == data.yearLow.value
    ensures data.volume.Some? ==> r.volume == data.volume.value
    // the derived fields come from the raw object
    ensures r.aiScore == AIScore(data.aiMetrics) && r.growthScore == GrowthScore(data.aiMetrics)
    ensures r.riskScore == RiskScore(data.analysis)
    ensures r.predictedPrice == PricePrediction(data)
    ensures r.aiMetrics == DefaultedMetrics(data.aiMetrics)
  {
    StockData(
      symbol := symbol,
      name := OrString(data.name, symbol),
      price := OrZero(ParseFloat(data.currentPrice)),
      marketCap := match data.marketCap case Some(v) => v * Display.BILLION case None => 0.0,
      peRatio := OrZero(data.peRatio),
      yearHigh := OrZero(data.yearHigh),
      yearLow := OrZero(data.yearLow),
      volume := data.volume.GetOr(0),
      aiScore := AIScore(data.aiMetrics),
      growthScore := GrowthScore(data.aiMetrics),
      riskScore := RiskScore(data.analysis),
      recommendation := OrString(data.recommendation, DEFAULT_RECOMMENDATION),
      predictedPrice := PricePrediction(data),
      historicalPrices := [],
      aiMetrics := DefaultedMetrics(data.aiMetrics))
  }

  /** The field defaults of `processStockData`, one by one. */
  lemma ProcessDefaults(symbol: string, data: RawData)
    ensures var r := ProcessStockData(symbol, data);
      && (data.name.None? || data.name == Some("") ==> r.name == symbol)
      && (data.recommendation.None? || data.recommendation == Some("") ==> r.recommendation == "Hold")
      && (ParseFloat(data.currentPrice).None? ==> r.price == 0.0)
      && (data.marketCap.None? ==> r.marketCap == 0.0)
      && (data.peRatio.None? ==> r.peRatio == 0.0)
      && (data.yearHigh.None? ==> r.yearHigh == 0.0)
      && (data.yearLow.None? ==> r.yearLow == 0.0)
      && (data.volume.None? ==> r.volume == 0)
      && (data.aiMetrics.Some? && data.aiMetrics.value.aiAdoption == 0.0 ==> r.aiMetrics.aiAdoption == 0.5)
  {
  }

  /** The copy with its defaults, read back as raw metrics. */
  function AsRaw(m: AIMetrics): RawMetrics {
    RawMetrics(m.rndInvestment, m.patentCount as real, m.marketShare, m.revenueGrowth, m.aiAdoption)
  }

  /** The record's AI score comes from the raw metrics, not from the defaulted
      copy stored beside it (`ProcessStockData` stores `AIScore(metrics)` and
      `DefaultedMetrics(metrics)`): with no metrics the record says 5 while its
      own copy would score 0.5, and an adoption of 0 is scored as 0 although the
      copy says 0.5. */
  lemma ScoresIgnoreDefaultedCopy(metrics: Option<RawMetrics>)
    ensures metrics.None? ==>
      AIScore(metrics) == 5.0 && AIScore(Some(AsRaw(DefaultedMetrics(metrics)))) == 0.5
    ensures (metrics.Some? && metrics.value.aiAdoption == 0.0 &&
             metrics.value.patentCount == (metrics.value.patentCount.Floor as real)) ==>
              AIScore(Some(AsRaw(DefaultedMetrics(metrics)))) == AIScore(metrics) + 0.5
  {
    if metrics.None? {
      assert AsRaw(DefaultedMetrics(metrics)) == RawMetrics(0.0, 0.0, 0.0, 0.0, DEFAULT_ADOPTION);
    } else {
      var m := metrics.value;
      if m.aiAdoption == 0.0 && m.patentCount == (m.patentCount.Floor as real) {
        assert Trunc(m.patentCount) as real == m.patentCount;
        assert AsRaw(DefaultedMetrics(metrics)) == m.(aiAdoption := DEFAULT_ADOPTION);
        AdoptionWeight(m, DEFAULT_ADOPTION);
      }
    }
  }

  /** No investment, patents, share, growth or adoption scores 0. */
  lemma AIScoreOfNothing()
    ensures AIScore(Some(RawMetrics(0.0, 0.0, 0.0, 0.0, 0.0))) == 0.0
  {
  }

  /** Each dollar of R&D below the 10000 cap adds 0.0003 points, negative
      amounts included (they are not clamped at 0); beyond the cap it adds
      nothing. */
  lemma RndWeight(m: RawMetrics, x: real)
    ensures m.rndInvestment <= 10000.0 && x <= 10000.0 ==>
      AIScore(Some(m.(rndInvestment := x))) == AIScore(Some(m)) + (x - m.rndInvestment) * 0.0003
    ensures m.rndInvestment >= 10000.0 && x >= 10000.0 ==>
      AIScore(Some(m.(rndInvestment := x))) == AIScore(Some(m))
  {
  }

  /** Each patent below the 1000 cap adds 0.002 points, negative counts
      included; beyond it nothing. */
  lemma PatentWeight(m: RawMetrics, x: real)
    ensures m.patentCount <= 1000.0 && x <= 1000.0 ==>
      AIScore(Some(m.(patentCount := x))) == AIScore(Some(m)) + (x - m.patentCount) * 0.002
    ensures m.patentCount >= 1000.0 && x >= 1000.0 ==>
      AIScore(Some(m.(patentCount := x))) == AIScore(Some(m))
  {
  }

  /** Each point of market share below 100 adds 0.02 points, negative shares
      included; beyond it nothing. */
  lemma ShareWeight(m: RawMetrics, x: real)
    ensures m.marketShare <= 100.0 && x <= 100.0 ==>
      AIScore(Some(m.(marketShare := x))) == AIScore(Some(m)) + (x - m.marketShare) * 0.02
    ensures m.marketShare >= 100.0 && x >= 100.0 ==>
      AIScore(Some(m.(marketShare := x))) == AIScore(Some(m))
  {
  }

  /** Each point of revenue growth in [0, 100] adds 0.02 points; negative
      growth counts as 0 and growth beyond 100 as 100. */
  lemma GrowthWeight(m: RawMetrics, x: real)
    ensures 0.0 <= m.revenueGrowth <= 100.0 && 0.0 <= x <= 100.0 ==>
      AIScore(Some(m.(revenueGrowth := x))) == AIScore(Some(m)) + (x - m.revenueGrowth) * 0.02
    ensures m.revenueGrowth >= 100.0 && x >= 100.0 ==>
      AIScore(Some(m.(revenueGrowth := x))) == AIScore(Some(m))
    ensures m.revenueGrowth <= 0.0 && x <= 0.0 ==>
      AIScore(Some(m.(revenueGrowth := x))) == AIScore(Some(m))
  {
  }

  /** Adoption enters the AI score with weight 0.1, times 10. */
  lemma AdoptionWeight(m: RawMetrics, adoption: real)
    ensures AIScore(Some(m.(aiAdoption := adoption))) == AIScore(Some(m)) + (adoption - m.aiAdoption)
  {
  }
}

=== FILE: sums.dfy ===
/** Sums of reals, folded from the left as `reduce((sum, x) => sum + x, 0)`
    computes them, with the bounds and identities the dashboard and the
    calculator rely on. */
module Sums {

  function Sum(xs: seq<real>): real {
    if xs == [] then 0.0 else Sum(xs[..|xs| - 1]) + xs[|xs| - 1]
  }

  predicate Within(xs: seq<real>, lo: real, hi: real) {
    forall i :: 0 <= i < |xs| ==> lo <= xs[i] <= hi
  }

  /** Values within [lo, hi] sum to between n·lo and n·hi. */
  lemma {:induction false} SumBounds(xs: seq<real>, lo: real, hi: real)
    requires Within(xs, lo, hi)
    ensures (|xs| as real) * lo <= Sum(xs) <= (|xs| as real) * hi
  {
    if xs != [] {
      var init := xs[..|xs| - 1];
      assert Within(init, lo, hi) by {
        forall i | 0 <= i < |init| ensures lo <= init[i] <= hi { assert init[i] == xs[i]; }
      }
      SumBounds(init, lo, hi);
    }
  }

  /** Non-negative values have a non-negative sum. */
  lemma {:induction false} SumNonNegative(xs: seq<real>)
    requires forall i :: 0 <= i < |xs| ==> xs[i] >= 0.0
    ensures Sum(xs) >= 0.0
  {
    if xs != [] {
      var init := xs[..|xs| - 1];
      assert forall i :: 0 <= i < |init| ==> init[i] == xs[i];
      SumNonNegative(init);
    }
  }

  /** Scaling every value scales the sum. */
  lemma {:induction false} SumScaled(xs: seq<real>, ys: seq<real>, c: real)
    requires |xs| == |ys| && forall i :: 0 <= i < |xs| ==> ys[i] == xs[i] * c
    ensures Sum(ys) == Sum(xs) * c
  {
    if xs != [] {
      var n := |xs| - 1;
      SumScaled(xs[..n], ys[..n], c);
    }
  }

  /** Two sequences whose values pair up to `c` have sums adding to n·c. */
  lemma {:induction false} SumOfPairs(xs: seq<real>, ys: seq<real>, c: real)
    requires |xs| == |ys| && forall i :: 0 <= i < |xs| ==> xs[i] + ys[i] == c
    ensures Sum(xs) + Sum(ys) == |xs| as real * c
  {
    if xs != [] {
      var n := |xs| - 1;
      SumOfPairs(xs[..n], ys[..n], c);
      assert |xs| as real * c == n as real * c + c;
    }
  }
}

=== FILE: types.dfy ===
/** The record shapes of the dashboard (the `StockData`, `AIMetrics` and
    `StockAnalysis` interfaces). They carry no behaviour of their own. */
module Types {
  import opened JsNumbers

  datatype PricePoint = PricePoint(date: string, price: real, volume: int)

  /** The AI metrics copied into a processed stock record. */
  datatype AIMetrics = AIMetrics(
    rndInvestment: real,
    patentCount: int,
    marketShare: real,
    revenueGrowth: real,
    aiAdoption: real)

  /** One processed stock record, as the cards, charts and calculator see it. */
  datatype StockData = StockData(
    symbol: string,
    name: string,
    price: real,
    marketCap: real,
    peRatio: real,
    yearHigh: real,
    yearLow: real,
    volume: int,
    aiScore: real,
    growthScore: real,
    riskScore: real,
    recommendation: string,
    predictedPrice: JsNumber,
    historicalPrices: seq<PricePoint>,
    aiMetrics: AIMetrics)

  datatype TechnicalIndicators = TechnicalIndicators(
    rsi: real, macd: real, movingAverage50: real, movingAverage200: real)

  datatype PriceTargets = PriceTargets(low: real, medium: real, high: real)

  /** The per-symbol analysis shown in the detail panel. */
  datatype StockAnalysis = StockAnalysis(
    technicalIndicators: TechnicalIndicators,
    sentimentScore: real,
    buyingOpportunity: string,
    riskLevel: string,
    priceTargets: PriceTargets)
}

=== FILE: use_stocks.dfy ===
/** The `useStocks` hook as a reducer: its five pieces of state and the events
    that the two fetches and the selection deliver, one at a time. The
    asynchronous calls themselves are outside the model; their outcomes arrive
    as events. */
module UseStocks {
  import opened Wrappers
  import opened Types

  const FETCH_STOCKS_ERROR: string := "Failed to fetch stock data"
  const FETCH_ANALYSIS_ERROR: string := "Failed to fetch stock analysis"

  datatype HookState = HookState(
    stocks: seq<StockData>,
    loading: bool,
    error: Option<string>,
    selectedStock: Option<string>,
    stockAnalysis: Option<StockAnalysis>)

  datatype Event =
    | FetchStart                        // `fetchStocks` (and `refreshData`) begins
    | FetchOk(data: seq<StockData>)     // `getTopAIStocks` resolved
    | FetchErr                          // `getTopAIStocks` rejected
    | Select(symbol: string)            // `selectStock`
    | AnalysisOk(analysis: Option<StockAnalysis>)  // `getStockAnalysis` resolved (`None`: it resolved `null`)
    | AnalysisErr                       // `getStockAnalysis` rejected

  /** The state on the first render. */
  function Initial(): (s: HookState)
    ensures s.stocks == [] && s.loading
    ensures s.error.None? && s.selectedStock.None? && s.stockAnalysis.None?
  {
    HookState([], true, None, None, None)
  }

  predicate IsFetchEvent(e: Event) {
    e.FetchStart? || e.FetchOk? || e.FetchErr?
  }

  /** One state update. */
  function Step(s: HookState, e: Event): (t: HookState)
    // which events touch which field
    ensures t.stocks == (if e.FetchOk? then e.data else s.stocks)
    ensures t.loading == (if IsFetchEvent(e) then e.FetchStart? else s.loading)
    ensures t.selectedStock == (if e.Select? then Some(e.symbol) else s.selectedStock)
    ensures t.stockAnalysis == (if e.AnalysisOk? then e.analysis else s.stockAnalysis)
    ensures e.FetchStart? || e.Select? ==> t.error == s.error
    ensures e.FetchOk? || e.AnalysisOk? ==> t.error.None?
    ensures e.FetchErr? ==> t.error == Some(FETCH_STOCKS_ERROR)
    ensures e.AnalysisErr? ==> t.error == Some(FETCH_ANALYSIS_ERROR)
  {
    match e
    case FetchStart => s.(loading := true)
    case FetchOk(data) => s.(stocks := data, error := None, loading := false)
    case FetchErr => s.(error := Some(FETCH_STOCKS_ERROR), loading := false)
    case Select(symbol) => s.(selectedStock := Some(symbol))
    case AnalysisOk(a) => s.(stockAnalysis := a, error := None)
    case AnalysisErr => s.(error := Some(FETCH_ANALYSIS_ERROR))
  }

  /** The states after a sequence of events, folded left. */
  function Run(s: HookState, es: seq<Event>): HookState
    decreases |es|
  {
    if es == [] then s else Run(Step(s, es[0]), es[1..])
  }

  lemma RunTwo(s: HookState, a: Event, b: Event)
    ensures Run(s, [a, b]) == Step(Step(s, a), b)
  {
    assert [a, b][1..] == [b];
    assert [b][1..] == [];
    assert Run(Step(s, a), [b]) == Run(Step(Step(s, a), b), []);
  }

  /** The selection effect asks for an analysis only when the selection changes
      to a truthy (non-empty) symbol. */
  predicate AnalysisRequested(before: HookState, symbol: string) {
    symbol != "" && before.selectedStock != Some(symbol)
  }

  /** The number of analysis requests still outstanding after `e`: a selection
      the effect reacts to issues one, an analysis outcome answers one. */
  function NextPending(s: HookState, pending: nat, e: Event): nat {
    match e
    case Select(symbol) => if AnalysisRequested(s, symbol) then pending + 1 else pending
    case AnalysisOk(_) => if pending > 0 then pending - 1 else 0
    case AnalysisErr => if pending > 0 then pending - 1 else 0
    case _ => pending
  }

  function PendingAfter(s: HookState, pending: nat, es: seq<Event>): nat
    decreases |es|
  {
    if es == [] then pending else PendingAfter(Step(s, es[0]), NextPending(s, pending, es[0]), es[1..])
  }

  /** Every analysis outcome in `es` answers a request issued before it:
      `fetchStockAnalysis` is called only from the selection effect. */
  predicate Causal(s: HookState, pending: nat, es: seq<Event>)
    decreases |es|
  {
    es == [] ||
      (&& ((es[0].AnalysisOk? || es[0].AnalysisErr?) ==> pending > 0)
       && Causal(Step(s, es[0]), NextPending(s, pending, es[0]), es[1..]))
  }

  /** Without a selection nothing is pending, no analysis is shown and no
      analysis error is reported. */
  predicate SelectionCovers(s: HookState, pending: nat) {
    s.selectedStock.None? ==>
      pending == 0 && s.stockAnalysis.None? && s.error != Some(FETCH_ANALYSIS_ERROR)
  }

  lemma {:induction false} SelectionCoversKept(s: HookState, pending: nat, es: seq<Event>)
    requires SelectionCovers(s, pending) && Causal(s, pending, es)
    ensures SelectionCovers(Run(s, es), PendingAfter(s, pending, es))
    decreases |es|
  {
    if es != [] {
      var e := es[0];
      assert SelectionCovers(Step(s, e), NextPending(s, pending, e));
      SelectionCoversKept(Step(s, e), NextPending(s, pending, e), es[1..]);
    }
  }

  /** An analysis, or the analysis error, is only ever seen with a stock
      selected: the request that produced it came from a selection, and
      nothing clears the selection. */
  lemma AnalysisNeedsSelection(es: seq<Event>)
    requires Causal(Initial(), 0, es)
    ensures var t := Run(Initial(), es);
      (t.stockAnalysis.Some? || t.error == Some(FETCH_ANALYSIS_ERROR)) ==> t.selectedStock.Some?
  {
    SelectionCoversKept(Initial(), 0, es);
  }

  /** The empty selection never issues a request, and an unchanged one issues
      none either. */
  lemma NoRequestWithoutChange(s: HookState, symbol: string)
    requires symbol == "" || s.selectedStock == Some(symbol)
    ensures NextPending(s, 0, Select(symbol)) == 0
  {
  }

  /** A successful fetch: loading while it runs, then the data, no error. */
  lemma FetchSucceeds(s: HookState, data: seq<StockData>)
    ensures Step(s, FetchStart).loading
    ensures Run(s, [FetchStart, FetchOk(data)]) ==
      s.(stocks := data, error := None, loading := false)
  {
    RunTwo(s, FetchStart, FetchOk(data));
  }

  /** A failed fetch keeps the old stocks and reports the stock-data error. */
  lemma FetchFails(s: HookState)
    ensures Run(s, [FetchStart, FetchErr]) ==
      s.(error := Some(FETCH_STOCKS_ERROR), loading := false)
  {
    RunTwo(s, FetchStart, FetchErr);
  }

  /** `refreshData` is `fetchStocks`: from any state it ends where the first
      load would have, apart from the selection and analysis it leaves alone. */
  lemma RefreshLikeFirstLoad(s: HookState, outcome: Event)
    requires outcome.FetchOk? || outcome.FetchErr?
    ensures var t := Run(s, [FetchStart, outcome]);
      var u := Run(Initial(), [FetchStart, outcome]);
      && t.loading == u.loading && !t.loading
      && (outcome.FetchOk? ==> t.stocks == u.stocks && t.error == u.error)
      && (outcome.FetchErr? ==> t.error == u.error && t.stocks == s.stocks)
      && t.selectedStock == s.selectedStock && t.stockAnalysis == s.stockAnalysis
  {
    RunTwo(s, FetchStart, outcome);
    RunTwo(Initial(), FetchStart, outcome);
  }

  /** An analysis request that resolves `null` clears the panel's analysis and
      the error, whatever was shown before. */
  lemma NullAnalysisClears(s: HookState)
    ensures Step(s, AnalysisOk(None)).stockAnalysis.None?
    ensures Step(s, AnalysisOk(None)).error.None?
    ensures Step(s, AnalysisOk(None)).stocks == s.stocks
  {
  }

  /** The error is always absent or one of the two messages. */
  predicate KnownError(s: HookState) {
    s.error.None? || s.error == Some(FETCH_STOCKS_ERROR) || s.error == Some(FETCH_ANALYSIS_ERROR)
  }

  lemma {:induction false} ErrorsAreKnown(s: HookState, es: seq<Event>)
    requires KnownError(s)
    ensures KnownError(Run(s, es))
    decreases |es|
  {
    if es != [] {
      ErrorsAreKnown(Step(s, es[0]), es[1..]);
    }
  }

  lemma ReachableErrorsAreKnown(es: seq<Event>)
    ensures KnownError(Run(Initial(), es))
  {
    ErrorsAreKnown(Initial(), es);
  }

  /** Selections and analysis results never touch the stock list or the
      loading flag. */
  lemma {:induction false} AnalysisLeavesStocksAlone(s: HookState, es: seq<Event>)
    requires forall i :: 0 <= i < |es| ==> !IsFetchEvent(es[i])
    ensures Run(s, es).stocks == s.stocks
    ensures Run(s, es).loading == s.loading
    decreases |es|
  {
    if es != [] {
      assert !IsFetchEvent(es[0]);
      AnalysisLeavesStocksAlone(Step(s, es[0]), es[1..]);
    }
  }

  /** Stock fetches never touch the selection or the analysis. */
  lemma {:induction false} FetchesLeaveSelectionAlone(s: HookState, es: seq<Event>)
    requires forall i :: 0 <= i < |es| ==> IsFetchEvent(es[i])
    ensures Run(s, es).selectedStock == s.selectedStock
    ensures Run(s, es).stockAnalysis == s.stockAnalysis
    decreases |es|
  {
    if es != [] {
      assert IsFetchEvent(es[0]);
      FetchesLeaveSelectionAlone(Step(s, es[0]), es[1..]);
    }
  }
}

=== FILE: wrappers.dfy ===
/** Optional values, used for JavaScript's `null`/`undefined`
    and for the NaN that `parseFloat`/`parseInt` return on input they reject. */
module Wrappers {

  datatype Option<+T> = None | Some(value: T) {

    /** The wrapped value, or `default` when there is none. */
    function GetOr(default: T): T {
      match this
      case Some(v) => v
      case None => default
    }
  }
}
